=== FILE: README.md ===
# 0xnet coordination core in Dafny

0xnet is a LAN watch-party application. A Node relay server keeps one
global playback record (which video, playing or paused, position, when it
was last anchored). It relays chat, WebRTC signalling and presence between
browsers. Each browser runs a video player that forwards local
play/pause/seek events and obeys remote ones. It also has a peer registry
for camera broadcasting, a video list with uploads, and a chat panel.

This project models that coordination logic as immutable records and pure
step functions. Each step returns the new state and the messages it emits
or delivers. It then proves what each handler guarantees and how the
pieces compose end to end.

| module | file | models |
|---|---|---|
| `Base` | base.dfy | shared records, `Option`, JavaScript whitespace |
| `Protocol` | protocol.dfy | socket events in both directions, the playback record |
| `Playback` | playback.dfy | the server's playback state machine and snapshot |
| `Relay` | relay.dfy | the server's socket handlers as one step function |
| `Uploads` | uploads.dfy | `/videos` listing, upload filter, stored file name, upload reply |
| `LocalIp` | local_ip.dfy | `getLocalIp` |
| `PlayerSync` | player_sync.dfy | `VideoPlayer.jsx`: the `isRemoteUpdate` guard and player calls |
| `PeerSession` | peer_session.dfy | `LiveStream.jsx`: the peer registry and its handlers |
| `VideoSection` | video_section.dfy | `VideoSection.jsx`: selection, fetch, upload, labels, modes |
| `ChatClient` | chat_client.dfy | `Chat.jsx`: send gate, log, own/other |
| `Scenarios` | scenarios.dfy | two browsers exchanging events through the server |

Clock readings are `int` milliseconds and positions are exact `real`
seconds. Browser and server results become parameters of the handlers that
consume them:

- camera access;
- whether a remote description is accepted;
- SDP text;
- fetch and upload responses;
- `Date.now()`;
- the random file-name prefix;
- the interface list.

Three behaviours of the code shape the model:

- The `isRemoteUpdate` flag is never cleared once set. Every local
  listener returns at once while the flag is set. Its assignment of
  `false` is reached only when the flag is already false
  (`VideoPlayer.jsx:37-42`). So every later local event is suppressed, not
  only the echo of the remote change. `PlayerSync.FlagStaysSet` and
  `PlayerSync.RemoteUpdateSilencesClient` state the consequence: after one
  remote event reaches a live player, that client never forwards a local
  event again.
- A local pause is sent without a position (`VideoPlayer.jsx:49`). The
  server therefore keeps the position of its last anchor, not the pausing
  player's position. `Scenarios.PauseKeepsOldAnchor` shows the reported
  position moving back.
- A remote source change is adopted with autoplay off
  (`VideoSection.jsx:35`), while the server records the new video as
  playing from 0. `Scenarios.SourceChangeReachesPeer` shows the receiving
  player loaded and paused.

## Model

| member | source | states |
|---|---|---|
| Playback.InitialReportsNothing | server/index.js:91-96 | before any transition a snapshot reports no url, not playing and position 0, however late it is taken |
| Playback.Snapshot | server/index.js:137-148 | url, isPlaying and lastUpdated are copied; while playing the position advances by the elapsed seconds since lastUpdated, while paused it is the stored one |
| Playback.ChangeSourceTo | server/index.js:150-156 | the new record names the video's url, plays, is anchored at now, and reports exactly the seconds elapsed since now at every later reading |
| Playback.PlayAt | server/index.js:161-164 | url kept, playing, anchored at now, and the reported position is the given time plus the seconds elapsed since now |
| Playback.PauseAt | server/index.js:168-174 | url kept, paused, anchored at now; the reported position is the given number, or the previously stored position when none is given |
| Playback.SeekTo | server/index.js:178-180 | url and play state kept, anchored at now, reported position is the given time at now and advances only if it was playing |
| Playback.Apply | server/index.js:137-182 | only the four transitions change the record, and each of them re-anchors it at now |
| Playback.RunSnoc | server/index.js:150-182 | running one more event applies it to the state the earlier run left |
| Playback.RunSource | server/index.js:150-182 | after any run the url is the one named by the last changeSource, or the initial one if there was none |
| Playback.RunPlaying | server/index.js:150-182 | after any run the play flag is set by the last changeSource or play and cleared by the last pause, seeks leaving it alone |
| Playback.ChangeSourceErasesHistory | server/index.js:150-156 | two histories that both end in the same changeSource at the same time leave the same record |
| Playback.PlayAbsorbsSeek | server/index.js:161-182 | a seek followed by a play is the same as the play alone |
| Playback.SeekAfterPlayKeepsPlaying | server/index.js:161-182 | a seek after a play keeps playing and re-anchors the position at the seek target |
| Playback.SnapshotReanchors | server/index.js:137-148 | anchoring a snapshot at the time it was taken reports the same position at every later reading |
| Playback.PlayingPositionAdvances | server/index.js:139-143 | while playing, the reported position advances by exactly the elapsed milliseconds divided by 1000 |
| Playback.PauseWithoutPositionRewinds | server/index.js:168-174 | a pause without a number while playing reports a position behind the one reported just before, by the time elapsed since the last anchor |
| Relay.ToAll | server/index.js:110 | one delivery of the message to each connection, in connection order |
| Relay.Without | server/index.js:105 | the connections other than the given one, keeping distinctness |
| Relay.ToOthers | server/index.js:102-159 | every delivery goes to a connection other than the sender, every other connection gets one, no connection gets two when the list has no repeats (as the server keeps it), and deliveries follow connection order |
| Relay.WithoutKeepsOrder | server/index.js:105 | leaving one connection out keeps the others in connection order |
| Relay.Handle | server/index.js:99-183 | messages never change the connection list; only the four transitions change the playback record, as the state machine prescribes; the list never holds a socket twice |
| Relay.RunKeepsConnsDistinct | server/index.js:99-106 | across any sequence of connects, disconnects and messages, no socket is listed twice |
| Relay.ChatReachesEveryone | server/index.js:109-111 | a chat message reaches every connection, the sender included, verbatim, and the state is unchanged |
| Relay.SignalGoesOnlyToTarget | server/index.js:121-134 | a signal with a non-empty connected target reaches exactly that target, stamped with the true sender; with no target nothing is delivered |
| Relay.RelaySignal | server/index.js:121-134 | at most one delivery, present iff the target is non-empty and connected, addressed to the target and stamped with the true sender |
| Relay.SignalIgnoresClaimedSender | server/index.js:123-128 | the sender a client writes into its signal has no influence on the result |
| Relay.JoinAnnouncedToOthers | server/index.js:114-119 | join-stream announces the originator to every other connection and never to itself |
| Relay.DisconnectAnnouncedToOthers | server/index.js:102-106 | a disconnect removes the socket and announces it to every remaining connection, never to itself |
| Relay.GetStateIsReadOnly | server/index.js:137-148 | getState changes nothing and answers only the asker, with the extrapolated position |
| Relay.TransitionsEchoToOthers | server/index.js:150-182 | each transition updates the record and is echoed to every connection but the sender; the pause echo carries no position |
| Uploads.FileOfUrl | server/index.js:63-76 | a url that names a file is the upload directory followed by that file |
| Uploads.UrlRoundTrip | server/index.js:63-76 | the file a served url names is the file it was built from |
| Uploads.ListVideos | server/index.js:73-76 | the listing has one descriptor per file, in order, named after it and serving it |
| Uploads.AcceptsMimeExactly | server/index.js:46-52 | the upload filter accepts a mimetype iff it is "video/" followed by anything |
| Uploads.CollapseSpaces | server/index.js:39 | the sanitised name has no whitespace, is no longer than the original, and a name without whitespace is unchanged |
| Uploads.CollapseIdempotent | server/index.js:39 | sanitising a sanitised name changes nothing |
| Uploads.RunBecomesOneUnderscore | server/index.js:39 | a maximal whitespace run after a word becomes exactly one underscore |
| Uploads.RunAtStart | server/index.js:39 | a leading whitespace run becomes exactly one underscore |
| Uploads.DropAllSpaces | server/index.js:39 | dropping whitespace skips a whitespace-only prefix and stops at the first non-space |
| Uploads.StoredName | server/index.js:36-40 | the stored name is the unique prefix, a dash, and the original name with each whitespace run replaced, a part with no whitespace |
| Uploads.UploadResponse | server/index.js:56-65 | no stored file is refused; otherwise the reply names the file and a path that serves it |
| Uploads.UploadedFileIsListed | server/index.js:56-83 | the listing shows the uploaded file with exactly the path the upload replied with |
| LocalIp.GetLocalIp | server/utils/ip.js:3-14 | the result is the address of the first non-internal IPv4 interface in the order the interface table lists them, then in list order, or "127.0.0.1" when there is none |
| LocalIp.FirstUsableUnique | server/utils/ip.js:5-11 | at most one position is the first usable one, so an earlier match always wins |
| LocalIp.SomeUsableHasFirst | server/utils/ip.js:5-11 | whenever some address is usable there is a first usable one, so the fallback is returned only when none is |
| PlayerSync.PerformShort | client/src/components/VideoPlayer.jsx:93-114 | a run of one to three player calls has the effect of performing them one after another |
| PlayerSync.OnLocal | client/src/components/VideoPlayer.jsx:35-61 | a local event emits iff the flag is clear, a socket exists and the player is live; play and seek carry the current time, pause carries none; the state is unchanged |
| PlayerSync.OnRemote | client/src/components/VideoPlayer.jsx:87-115 | without a live player nothing happens; otherwise the flag is set, a play seeks iff the drift exceeds 0.5 s and always ends playing within 0.5 s of the target, a pause pauses, a seek seeks unconditionally |
| PlayerSync.OnActive | client/src/components/VideoPlayer.jsx:13-17 | becoming inactive pauses a live player and does nothing else; becoming active does nothing |
| PlayerSync.OnOptions | client/src/components/VideoPlayer.jsx:19-76 | the first run creates the player from the options; a live player gets the new sources and a play call iff autoplay is on; a disposed one is left alone |
| PlayerSync.Unmount | client/src/components/VideoPlayer.jsx:129-142 | a live player is disposed and the reference dropped; anything else is left as it is |
| PlayerSync.Handle | client/src/components/VideoPlayer.jsx:35-126 | no event clears the flag, and only a local event with the flag clear emits |
| PlayerSync.FlagStaysSet | client/src/components/VideoPlayer.jsx:37-60 | once set, the flag stays set through every later run of events and nothing more is emitted |
| PlayerSync.RemoteUpdateSilencesClient | client/src/components/VideoPlayer.jsx:35-115 | after a remote event reaches a live player, no later event of that client is forwarded |
| PlayerSync.NoRemoteKeepsFlag | client/src/components/VideoPlayer.jsx:13-76 | runs without remote events never change the flag |
| PeerSession.CreatePeer | client/src/components/LiveStream.jsx:117-124 | the target maps to a fresh open peer with the given initiator role and local tracks iff a stream is given; other entries are kept |
| PeerSession.StartCapture | client/src/components/LiveStream.jsx:25-46 | join-stream is emitted iff a socket exists and the component views or broadcasts with the camera granted; a granted camera keeps the stream even when the missing socket turns the status into the camera error; a refused camera reports the error; the registry is untouched |
| PeerSession.SwitchMode | client/src/components/LiveStream.jsx:47-56 | setting the same mode again changes nothing; leaving a live mode closes every peer, empties the registry and stops the tracks of the stream the previous effect run saw, if any; between broadcast and view the stream state and the status are kept and the new run records whether a stream is held now; leaving stored mode mounts afresh with no stream, the initial status and an empty registry, and stops nothing |
| PeerSession.OnUserConnected | client/src/components/LiveStream.jsx:63-69 | only a broadcaster with a stream creates an initiator peer with tracks for the newcomer, adding exactly that key; other entries, the mode, the status and the stream state are kept; nothing is emitted |
| PeerSession.RejoinReplacesWithoutClosing | client/src/components/LiveStream.jsx:63-119 | a repeated join replaces the entry without closing the peer it held |
| PeerSession.OnUserDisconnected | client/src/components/LiveStream.jsx:71-78 | only that id's peer is closed and removed, with the mode, the status and the stream state kept; an absent id changes nothing |
| PeerSession.OnSignal | client/src/components/LiveStream.jsx:80-103 | an unknown sender gets a responder peer, a known one is reused; an accepted offer is answered with one signal to the sender; answers and candidates emit nothing |
| PeerSession.OnNegotiationNeeded | client/src/components/LiveStream.jsx:145-159 | only a registered initiator peer sends its offer, to its target |
| PeerSession.OnIceCandidate | client/src/components/LiveStream.jsx:127-134 | a candidate is signalled to the peer's target iff it is non-null |
| PeerSession.OnTrack | client/src/components/LiveStream.jsx:137-143 | only a viewer's status changes, to connected; the registry, the mode and the stream state are kept |
| PeerSession.Cleanup | client/src/components/LiveStream.jsx:47-55 | every registered peer is closed, the registry is left empty, and tracks are stopped iff the effect run that registered the cleanup saw a stream |
| PeerSession.MountWellFormed | client/src/components/LiveStream.jsx:14-22 | a freshly mounted component has an empty registry that satisfies the registry invariant |
| PeerSession.HandleKeepsWellFormed | client/src/components/LiveStream.jsx:47-159 | every handler keeps the registry invariant: open peers only, tracks only from a captured stream, initiators only in broadcast mode with a stream; only a switch changes the mode or stops tracks; in stored mode, where the component is not mounted, every other event is ignored |
| PeerSession.ViewerOnlyAnswers | client/src/components/LiveStream.jsx:80-159 | while it stays a viewer, every description a component sends is an answer |
| PeerSession.RunKeepsWellFormed | client/src/components/LiveStream.jsx:47-159 | every run of events keeps the registry invariant, and runs without a switch keep the mode |
| PeerSession.ViewerKeepsCameraAfterSwitch | client/src/components/LiveStream.jsx:19-124 | a broadcaster that switches to viewing keeps its camera stream, so the responder peer it creates for an offer carries camera tracks |
| PeerSession.SwitchBackStopsCamera | client/src/components/LiveStream.jsx:19-56 | after a broadcast mount and a capture, switching to viewing stops no tracks, and switching back to broadcasting stops them while the stream state still reports the stream held |
| PeerSession.ExitLeaksCamera | client/src/components/LiveStream.jsx:14-56 | exiting after a capture that followed a broadcast mount stops no tracks, and coming back mounts afresh with no stream, so a newcomer gets no peer |
| VideoSection.SelectVideo | client/src/components/VideoSection.jsx:90-107 | the video is selected and its single mp4 source from the origin autoplays, while mode, list and upload mark are kept; the change is emitted iff asked to and a socket exists |
| VideoSection.OnChangeSource | client/src/components/VideoSection.jsx:31-44 | a remote choice is selected with the same source and autoplay off, and is never re-emitted |
| VideoSection.RemoteChangeMatchesLocalSelect | client/src/components/VideoSection.jsx:31-107 | a remote change and a silent local selection agree on everything but autoplay |
| VideoSection.FirstNamed | client/src/components/VideoSection.jsx:63 | the index found holds the name and no earlier entry does; none is found iff no entry has the name |
| VideoSection.DefaultVideo | client/src/components/VideoSection.jsx:63 | the default is the first video named sample.mp4 when there is one, otherwise the first video |
| VideoSection.FetchVideos | client/src/components/VideoSection.jsx:53-88 | a non-empty list is stored and, with nothing selected, its default is selected without emitting; an empty list or an error falls back to the sample source; a non-ok response changes nothing |
| VideoSection.BeginUpload | client/src/components/VideoSection.jsx:109-113 | the section is uploading afterwards iff a file was chosen or it already was; mode, list, selection and options are kept |
| VideoSection.FinishUpload | client/src/components/VideoSection.jsx:117-142 | on success the list is the refetched one (or the old one when the refetch fails) and the uploaded file is selected and announced; on every path the uploading mark is cleared |
| VideoSection.Label | client/src/components/VideoSection.jsx:204 | a label is at most 20 characters; it is the name iff the name fits; a longer name keeps its first 17 characters followed by "..." |
| VideoSection.ExitLive | client/src/components/VideoSection.jsx:145-147 | exit returns to stored mode and leaves the list, the selection, the upload mark and the player options as they were |
| VideoSection.SetMode | client/src/components/VideoSection.jsx:150-167 | a mode button shows the chosen mode and keeps the list, the selection, the upload mark and the player options |
| VideoSection.ModesAreExclusive | client/src/components/VideoSection.jsx:173-215 | in every mode exactly one of the player and the live stream is in use, and exit returns to the player |
| VideoSection.LabelKeepsPrefix | client/src/components/VideoSection.jsx:204 | every character a label keeps before the ellipsis is the name's own |
| Base.TrimStart | client/src/components/Chat.jsx:32 | the result is a suffix of the input that starts with a non-space, and only whitespace was removed |
| ChatClient.TrimEnd | client/src/components/Chat.jsx:32 | the result is a prefix of the input that ends with a non-space, and only whitespace was removed |
| ChatClient.Trim | client/src/components/Chat.jsx:32-36 | the result has non-space ends and the input is whitespace, the result, whitespace |
| ChatClient.TrimEmptyIffBlank | client/src/components/Chat.jsx:32 | the trimmed input is empty iff the input is all whitespace |
| ChatClient.TrimIdempotent | client/src/components/Chat.jsx:32 | trimming twice is trimming once |
| ChatClient.SendMessage | client/src/components/Chat.jsx:30-50 | a message is emitted iff the input has a non-space character and a socket exists; it carries the trimmed text and the user's name and clears the input; the log is never touched |
| ChatClient.HandleMessage | client/src/components/Chat.jsx:14-16 | exactly the received message is appended at the end and earlier ones are kept in order |
| ChatClient.ReceiveAllAppends | client/src/components/Chat.jsx:14-16 | receiving a run of messages appends exactly them, in order |
| ChatClient.SentMessageIsOwn | client/src/components/Chat.jsx:33-63 | a message the panel sent is classed as its own |
| Scenarios.ChatRoundTrip | client/src/components/Chat.jsx:30-50 | a non-blank message reaches the sender and the others through the server; in the sender's log it is last and own, in another user's it is not own |
| Scenarios.ChatReaches | server/index.js:109-111 | the chat broadcast reaches both the sender and any other connection |
| Scenarios.PlayReachesPeer | client/src/components/VideoPlayer.jsx:35-97 | a local play is forwarded with its position; the server then reports that position; the peer plays within 0.5 s of it and forwards nothing back |
| Scenarios.SourceChangeReachesPeer | client/src/components/VideoSection.jsx:31-107 | a selection is announced; the server plays it from 0; the peer selects it with autoplay off and its player loads it paused |
| Scenarios.PauseKeepsOldAnchor | server/index.js:168-176 | a forwarded pause carries no position, so the server keeps its last anchor and reports a position behind the one before |
| Scenarios.Handshake | client/src/components/LiveStream.jsx:63-159 | join, offer and answer travel between a broadcaster and a viewer through the server, each stamped with its true sender, and the broadcaster reuses its peer |
| Scenarios.SignalRelayed | server/index.js:121-128 | a signal addressed to a connected id reaches exactly that id, stamped with the sender |

## Left out

- React hook and closure semantics are not modelled: effect timing, re-registration of listeners, and stale captured values. For example, `fetchVideos` reads a possibly stale `selectedVideo`, and the player listeners capture the socket of their first run. Handlers use the current state; the one stale value modelled is the stream seen by the LiveStream mode effect, recorded as `effectStream`.
- video.js internals are not modelled: the player is a small record. Loading a source rewinds it to 0 and pauses it. Autoplay promise rejection and errors while disposing are not represented.
- WebRTC internals are not modelled: `RTCPeerConnection`, SDP and ICE processing, `getUserMedia` and stopping tracks. Their results are parameters, and a peer is an abstract record.
- socket.io transport is not modelled: delivery order, timing and reconnection are absent. The server handles one event at a time in arrival order, and deliveries are a sequence.
- IEEE-754 arithmetic is replaced by exact `real` seconds and `int` milliseconds.
- Lengths are counted in characters, not in UTF-16 code units; this matters for label truncation.
- Express, multer and the file system are out of the model: the directory listing, the storage and the 500 MB size limit. Only the name/url mapping, the mimetype filter, the stored name and the reply are modelled. The stored name's prefix (clock reading and random number) is a parameter.
- Uploads.AcceptsMimeExactly: a rejected file is only modelled as not accepted, without the error multer raises.
- PlayerSync.OnOptions: the first run creates the player with the given options; a missing or detached video element, which makes the effect return early, is not represented.
- The constant player options (`controls`, `responsive`, `fluid`) are omitted from `Options`.
- LocalIp.GetLocalIp: the family is compared as the string "IPv4"; Node versions that report the family as a number are not represented.
- The status line shown before the camera answers is only the initial one; the asynchronous gap between mounting and camera access is collapsed into `StartCapture`.
- PeerSession.StartCapture: in view mode without a socket the emit throws out of the effect; the model records the status change and no emit, not the uncaught error.
- PeerSession.SwitchMode: stored mode stands for the unmounted component, so its state in that mode is not meaningful until the next mount. Streams have no identity here: `stopTracks` says that the cleanup stops the stream its effect run saw, which after a later capture is an earlier stream than the one held now; whether the held stream's tracks are still live, and so whether later peers receive stopped tracks, is not recorded.
- client/src/components/Background3D.jsx, client/src/App.jsx, client/src/components/Login.jsx, server/services/discovery.js and client/vite.config.js are not part of this model: they are rendering, routing, a form with the same trim gate, mDNS advertisement and build configuration.
- The HTTP health check and static file serving are not part of this model.

=== FILE: base.dfy ===
/** Values shared by the relay server and the browser client: identifiers,
    the records that travel over the socket, and the JavaScript string
    predicates the handlers rely on. */
module Base {

  datatype Option<+T> = None | Some(value: T)

  /** A socket.io connection id, assigned by the transport. */
  type ConnId = string

  /** A stored video: its display name and its path below the server origin. */
  datatype Video = Video(name: string, url: string)

  /** A chat message as the client builds it; the server relays it untouched. */
  datatype ChatMessage = ChatMessage(id: int, user: string, text: string, timestamp: string)

  /** A WebRTC signalling payload: a session description (whose `type` is
      "offer", "answer" or another description kind) or an ICE candidate. */
  datatype SignalPayload =
    | Description(kind: string, sdp: string)
    | IceCandidate(candidate: string)

  /** The three modes of the video section. */
  datatype Mode = Stored | Broadcast | View

  /** One entry of a video.js `sources` list. */
  datatype Source = Source(src: string, mime: string)

  /** The player options the video section hands to the player (the
      `controls`, `responsive` and `fluid` flags are always true and omitted). */
  datatype Options = Options(autoplay: bool, sources: seq<Source>)

  /** JavaScript truthiness of an optional string: absent and "" are false. */
  predicate Truthy(s: Option<string>) {
    s.Some? && s.value != ""
  }

  predicate IsPrefix(p: string, s: string) {
    |p| <= |s| && s[..|p|] == p
  }

  /** The ECMAScript WhiteSpace and LineTerminator code points: the class `\s`
      matches and the set `String.prototype.trim` strips. */
  predicate IsSpace(c: char) {
    || c == '\t' || c == '\n' || c == '\U{000B}' || c == '\U{000C}' || c == '\r'
    || c == ' ' || c == '\U{00A0}' || c == '\U{1680}'
    || ('\U{2000}' <= c <= '\U{200A}')
    || c == '\U{2028}' || c == '\U{2029}' || c == '\U{202F}' || c == '\U{205F}'
    || c == '\U{3000}' || c == '\U{FEFF}'
  }

  predicate NoSpace(s: string) {
    forall i :: 0 <= i < |s| ==> !IsSpace(s[i])
  }

  predicate AllSpace(s: string) {
    forall i :: 0 <= i < |s| ==> IsSpace(s[i])
  }

  /** `s` without its leading whitespace: the start of `trim`, and what a
      whitespace run swallows in a regular-expression replacement. */
  function TrimStart(s: string): (r: string)
    ensures |r| <= |s| && r == s[|s| - |r|..]
    ensures r == [] || !IsSpace(r[0])
    ensures AllSpace(s[..|s| - |r|])
  {
    if s == [] || !IsSpace(s[0]) then s
    else
      var r := TrimStart(s[1..]);
      assert s[..|s| - |r|] == [s[0]] + s[1..][..|s[1..]| - |r|];
      r
  }
}

=== FILE: chat_client.dfy ===
/** The chat panel (client/src/components/Chat.jsx): the send gate, the
    message it builds, the append-only log fed by the server's echo, and
    the own/other classification. The clock readings that give a message
    its id and time are parameters. */
module ChatClient {
  import opened Base
  import opened Protocol

  /** `s` without trailing whitespace. */
  function TrimEnd(s: string): (r: string)
    ensures |r| <= |s| && r == s[..|r|]
    ensures r == [] || !IsSpace(r[|r| - 1])
    ensures AllSpace(s[|r|..])
  {
    if s == [] || !IsSpace(s[|s| - 1]) then s
    else
      var r := TrimEnd(s[..|s| - 1]);
      assert s[|r|..] == s[..|s| - 1][|r|..] + [s[|s| - 1]];
      r
  }

  /** `String.prototype.trim`. */
  function Trim(s: string): (r: string)
    ensures r == [] || (!IsSpace(r[0]) && !IsSpace(r[|r| - 1]))
    ensures exists a, b :: s == a + r + b && AllSpace(a) && AllSpace(b)
  {
    TrimEnds(s);
    TrimPieces(s);
    TrimEnd(TrimStart(s))
  }

  /** Neither end of the trimmed string is whitespace. */
  lemma TrimEnds(s: string)
    ensures var r := TrimEnd(TrimStart(s));
      r == [] || (!IsSpace(r[0]) && !IsSpace(r[|r| - 1]))
  {
    var t := TrimStart(s);
    var r := TrimEnd(t);
    assert r != [] ==> r[0] == t[0];
  }

  /** Only whitespace is removed, from the two ends. */
  lemma TrimPieces(s: string)
    ensures exists a, b :: s == a + TrimEnd(TrimStart(s)) + b && AllSpace(a) && AllSpace(b)
  {
    var t := TrimStart(s);
    var r := TrimEnd(t);
    ThreePieces(s, t, r);
    var a, b := s[..|s| - |t|], t[|r|..];
    assert AllSpace(a) && AllSpace(b);
  }

  /** A suffix of `s` cut down to a prefix of itself leaves `s` as three
      consecutive pieces. */
  lemma ThreePieces(s: string, t: string, r: string)
    requires |t| <= |s| && t == s[|s| - |t|..]
    requires |r| <= |t| && r == t[..|r|]
    ensures s == s[..|s| - |t|] + r + t[|r|..]
  {
    assert s == s[..|s| - |t|] + t;
    assert t == r + t[|r|..];
  }

  /** A message survives the gate iff it has a non-space character. */
  lemma {:induction false} TrimEmptyIffBlank(s: string)
    ensures Trim(s) == [] <==> AllSpace(s)
  {
    var r := Trim(s);
    if r == [] {
      var a, b :| s == a + r + b && AllSpace(a) && AllSpace(b);
      assert s == a + b;
      forall i | 0 <= i < |s| ensures IsSpace(s[i]) {
        if i < |a| { assert s[i] == a[i]; } else { assert s[i] == b[i - |a|]; }
      }
    } else {
      var a, b :| s == a + r + b && AllSpace(a) && AllSpace(b);
      assert s[|a|] == r[0];
    }
  }

  /** Trimming is idempotent. */
  lemma TrimIdempotent(s: string)
    ensures Trim(Trim(s)) == Trim(s)
  {
  }

  /** The panel's state: the user's name, the input box, the log. */
  datatype Panel = Panel(username: string, input: string, messages: seq<ChatMessage>)

  /** The effect of submitting the form. */
  datatype Outcome = Outcome(panel: Panel, sent: seq<ClientMsg>)

  /** `sendMessage`: with a non-blank input and a socket, one message with
      the trimmed text and the user's name is emitted and the input
      cleared; otherwise nothing happens. The log is never touched: the
      sender waits for the server's echo. */
  function SendMessage(p: Panel, hasSocket: bool, id: int, time: string): (r: Outcome)
    ensures r.panel.messages == p.messages && r.panel.username == p.username
    ensures r.sent != [] <==> !AllSpace(p.input) && hasSocket
    ensures r.sent != [] ==> r.sent == [ChatSend(ChatMessage(id, p.username, Trim(p.input), time))] && r.panel.input == ""
    ensures r.sent == [] ==> r.panel == p
  {
    TrimEmptyIffBlank(p.input);
    if Trim(p.input) != [] && hasSocket then
      Outcome(p.(input := ""), [ChatSend(ChatMessage(id, p.username, Trim(p.input), time))])
    else Outcome(p, [])
  }

  /** `handleMessage`: the received message goes at the end of the log. */
  function HandleMessage(p: Panel, m: ChatMessage): (r: Panel)
    ensures |r.messages| == |p.messages| + 1
    ensures r.messages[..|p.messages|] == p.messages && r.messages[|p.messages|] == m
    ensures r.username == p.username && r.input == p.input
  {
    p.(messages := p.messages + [m])
  }

  /** Receiving a run of messages appends exactly them, in order: the log
      only grows, at its end. */
  function ReceiveAll(p: Panel, ms: seq<ChatMessage>): Panel
    decreases |ms|
  {
    if ms == [] then p else ReceiveAll(HandleMessage(p, ms[0]), ms[1..])
  }

  lemma {:induction false} ReceiveAllAppends(p: Panel, ms: seq<ChatMessage>)
    ensures ReceiveAll(p, ms).messages == p.messages + ms
    ensures ReceiveAll(p, ms).input == p.input
    decreases |ms|
  {
    if ms != [] {
      ReceiveAllAppends(HandleMessage(p, ms[0]), ms[1..]);
      assert p.messages + [ms[0]] + ms[1..] == p.messages + ms;
    }
  }

  /** A message is shown as the user's own iff its author is the user. */
  predicate IsOwn(p: Panel, m: ChatMessage) {
    m.user == p.username
  }

  /** A message the panel sent comes back classed as its own. */
  lemma SentMessageIsOwn(p: Panel, id: int, time: string)
    requires !AllSpace(p.input)
    ensures SendMessage(p, true, id, time).sent != []
    ensures IsOwn(p, SendMessage(p, true, id, time).sent[0].message)
  {
  }
}

=== FILE: local_ip.dfy ===
/** `getLocalIp` (server/utils/ip.js): the address the server announces is
    the first external IPv4 address, scanning interfaces in the order the
    interface table lists them and each interface's addresses in list
    order, or the loopback address when there is none. The interface table
    is a parameter. */
module LocalIp {

  datatype Address = Address(family: string, address: string, internal: bool)

  /** One entry of `os.networkInterfaces()`. */
  datatype Interface = Interface(name: string, addrs: seq<Address>)

  const Fallback: string := "127.0.0.1"

  predicate Usable(a: Address) {
    a.family == "IPv4" && !a.internal
  }

  /** No usable address at any position before (i, j) in scan order. */
  predicate NoneBefore(ifs: seq<Interface>, i: int, j: int) {
    forall i', j' ::
      0 <= i' < |ifs| && 0 <= j' < |ifs[i'].addrs| && (i' < i || (i' == i && j' < j))
      ==> !Usable(ifs[i'].addrs[j'])
  }

  /** (i, j) is the first usable address in scan order. */
  predicate FirstUsable(ifs: seq<Interface>, i: int, j: int) {
    0 <= i < |ifs| && 0 <= j < |ifs[i].addrs| && Usable(ifs[i].addrs[j]) && NoneBefore(ifs, i, j)
  }

  method GetLocalIp(ifs: seq<Interface>) returns (ip: string)
    ensures (exists i, j :: FirstUsable(ifs, i, j) && ip == ifs[i].addrs[j].address)
         || (NoneBefore(ifs, |ifs|, 0) && ip == Fallback)
  {
    var i := 0;
    while i < |ifs|
      invariant 0 <= i <= |ifs|
      invariant NoneBefore(ifs, i, 0)
    {
      var j := 0;
      while j < |ifs[i].addrs|
        invariant 0 <= j <= |ifs[i].addrs|
        invariant NoneBefore(ifs, i, j)
      {
        if Usable(ifs[i].addrs[j]) {
          return ifs[i].addrs[j].address;
        }
        j := j + 1;
      }
      i := i + 1;
    }
    return Fallback;
  }

  /** The first usable position is unique, so an earlier match always wins
      over any later one. */
  lemma FirstUsableUnique(ifs: seq<Interface>, i: int, j: int, i2: int, j2: int)
    requires FirstUsable(ifs, i, j) && FirstUsable(ifs, i2, j2)
    ensures i == i2 && j == j2
  {
  }

  /** When a usable address exists, the fallback is not chosen by position:
      a table with any usable address has a first one. */
  lemma {:induction false} SomeUsableHasFirst(ifs: seq<Interface>, i: int, j: int)
    requires 0 <= i < |ifs| && 0 <= j < |ifs[i].addrs| && Usable(ifs[i].addrs[j])
    ensures exists i0, j0 :: FirstUsable(ifs, i0, j0)
    decreases i, j
  {
    if !NoneBefore(ifs, i, j) {
      var i', j' :| 0 <= i' < |ifs| && 0 <= j' < |ifs[i'].addrs| && (i' < i || (i' == i && j' < j))
        && Usable(ifs[i'].addrs[j']);
      SomeUsableHasFirst(ifs, i', j');
    } else {
      assert FirstUsable(ifs, i, j);
    }
  }
}

=== FILE: peer_session.dfy ===
/** The peer session manager (client/src/components/LiveStream.jsx): the
    registry `peersRef` from counterparty id to peer connection, the socket
    handlers that create, reuse and remove entries, the per-peer callbacks,
    camera start and cleanup. A peer connection is an abstract record;
    browser results (camera access, description handling, the SDP text
    produced) are parameters, and outgoing socket messages are a trace. */
module PeerSession {
  import opened Base
  import opened Protocol

  const Room: string := "default-room"

  const StatusInitial: string := "Initializing..."
  const StatusWaiting: string := "Live - Waiting for viewers..."
  const StatusCameraError: string := "Error accessing camera"
  const StatusConnecting: string := "Connecting to stream..."
  const StatusConnected: string := "Connected to Stream"

  /** One RTCPeerConnection: whether this side created it as initiator,
      whether local tracks were added to it, whether it was closed. */
  datatype Peer = Peer(initiator: bool, hasLocalTracks: bool, closed: bool)

  /** The component state: its mode, the status line, whether a local
      camera stream was captured, the peer registry, and whether the mode
      effect last ran while a stream was held. The effect depends on the
      mode and the socket only, so its cleanup closure keeps the stream
      state of that run: `effectStream` says whether that cleanup has a
      stream to stop. */
  datatype Live = Live(mode: Mode, status: string, hasStream: bool, peers: map<ConnId, Peer>, effectStream: bool)

  /** What a handler did: the new state, the socket messages it emitted,
      the peers it closed (as they were, now closed) and whether it stopped
      the tracks of a captured stream. */
  datatype Outcome = Outcome(live: Live, sent: seq<ClientMsg>, closed: map<ConnId, Peer>, stopTracks: bool)

  /** The first render: no stream yet, so the mode effect that runs now
      captures none. */
  function Mount(mode: Mode): Live {
    Live(mode, StatusInitial, false, map[], false)
  }

  /** `createPeer`: a fresh open peer is stored under `target`, with local
      tracks iff a stream is given. */
  function CreatePeer(l: Live, target: ConnId, stream: bool, initiator: bool): (r: Live)
    ensures r.mode == l.mode && r.status == l.status && r.hasStream == l.hasStream && r.effectStream == l.effectStream
    ensures target in r.peers && r.peers[target] == Peer(initiator, stream, false)
    ensures forall k :: k in r.peers <==> k in l.peers || k == target
    ensures forall k :: k in l.peers && k != target ==> r.peers[k] == l.peers[k]
  {
    l.(peers := l.peers[target := Peer(initiator, stream, false)])
  }

  /** The mode effect. Broadcast: a granted camera stream is kept and the
      status says it is live; `join-stream` is then emitted, and without a
      socket that emit throws into the camera handler's catch, which reports
      the camera error while the stream stays held. A refused camera only
      reports the error. View: the status says connecting and `join-stream`
      is emitted iff a socket exists; without one the emit throws out of
      the effect and nothing more happens. */
  function StartCapture(l: Live, cameraGranted: bool, hasSocket: bool): (r: Outcome)
    ensures r.live.peers == l.peers && r.live.mode == l.mode && r.live.effectStream == l.effectStream
    ensures r.closed == map[] && !r.stopTracks
    ensures r.sent != [] <==> hasSocket && (l.mode == View || (l.mode == Broadcast && cameraGranted))
    ensures r.sent != [] ==> r.sent == [JoinStream(Room)]
    ensures r.live.hasStream <==> l.hasStream || (l.mode == Broadcast && cameraGranted)
    ensures l.mode == Broadcast ==> (r.live.status == StatusWaiting <==> cameraGranted && hasSocket)
    ensures l.mode == Broadcast && !(cameraGranted && hasSocket) ==> r.live.status == StatusCameraError
    ensures l.mode == View ==> r.live.status == StatusConnecting
    ensures l.mode == Stored ==> r == Outcome(l, [], map[], false)
  {
    match l.mode
    case Broadcast =>
      if !cameraGranted then Outcome(l.(status := StatusCameraError), [], map[], false)
      else if hasSocket then Outcome(l.(hasStream := true, status := StatusWaiting), [JoinStream(Room)], map[], false)
      else Outcome(l.(hasStream := true, status := StatusCameraError), [], map[], false)
    case View =>
      Outcome(l.(status := StatusConnecting), if hasSocket then [JoinStream(Room)] else [], map[], false)
    case Stored => Outcome(l, [], map[], false)
  }

  /** A change of mode. The component exists only in broadcast and view
      modes, so stored mode stands for "unmounted".
      - Setting the same mode again re-runs nothing.
      - Leaving a live mode runs the mode effect's cleanup: every peer is
        closed, the registry is emptied and the tracks of the stream that
        the effect's run saw, if any, are stopped.
      - Between broadcasting and viewing the component stays mounted: the
        stream state and the status line stay, and the new effect run sees
        the stream held now.
      - Going to stored mode unmounts; leaving stored mode mounts afresh,
        with no stream, the initial status and an empty registry. */
  function SwitchMode(l: Live, to: Mode): (r: Outcome)
    ensures r.sent == [] && r.live.mode == to
    ensures to == l.mode ==> r == Outcome(l, [], map[], false)
    ensures l.mode == Stored && to != Stored ==> r.live == Mount(to) && r.closed == map[]
    ensures l.mode != Stored && to != l.mode ==> r.live.peers == map[] && r.closed.Keys == l.peers.Keys
    ensures forall k :: k in r.closed ==> k in l.peers && r.closed[k] == l.peers[k].(closed := true)
    ensures r.stopTracks <==> l.mode != Stored && to != l.mode && l.effectStream
    ensures l.mode != Stored && to != Stored ==>
      r.live.hasStream == l.hasStream && r.live.status == l.status
      && (to != l.mode ==> r.live.effectStream == l.hasStream)
  {
    if to == l.mode then Outcome(l, [], map[], false)
    else if l.mode == Stored then Outcome(Mount(to), [], map[], false)
    else
      var t := Cleanup(l);
      Outcome(t.live.(mode := to, effectStream := l.hasStream), [], t.closed, t.stopTracks)
  }

  /** `user-connected`: a broadcaster with a camera stream creates an
      initiator peer, with its tracks, for the newcomer; anyone else
      ignores the event. Nothing is emitted yet: the offer follows on
      negotiation. */
  function OnUserConnected(l: Live, id: ConnId): (r: Outcome)
    ensures r.sent == [] && r.closed == map[] && !r.stopTracks
    ensures r.live.mode == l.mode && r.live.status == l.status
    ensures r.live.hasStream == l.hasStream && r.live.effectStream == l.effectStream
    ensures l.mode == Broadcast && l.hasStream ==>
      r.live.peers.Keys == l.peers.Keys + {id} && r.live.peers[id] == Peer(true, true, false)
      && forall k :: k in l.peers && k != id ==> r.live.peers[k] == l.peers[k]
    ensures !(l.mode == Broadcast && l.hasStream) ==> r.live == l
  {
    if l.mode == Broadcast && l.hasStream then Outcome(CreatePeer(l, id, true, true), [], map[], false)
    else Outcome(l, [], map[], false)
  }

  /** A second `user-connected` for an id that already has a peer replaces
      the entry without closing the peer it held: that connection is
      dropped from the registry while still open. */
  lemma RejoinReplacesWithoutClosing(l: Live, id: ConnId)
    requires l.mode == Broadcast && l.hasStream && id in l.peers
    ensures var r := OnUserConnected(l, id);
      r.closed == map[] && r.live.peers[id] == Peer(true, true, false) && |r.live.peers| == |l.peers|
  {
    assert OnUserConnected(l, id).live.peers.Keys == l.peers.Keys;
  }

  /** `user-disconnected`: that id's peer, if any, is closed and removed;
      every other entry stays as it was. */
  function OnUserDisconnected(l: Live, id: ConnId): (r: Outcome)
    ensures r.sent == [] && !r.stopTracks
    ensures r.live.mode == l.mode && r.live.status == l.status
    ensures r.live.hasStream == l.hasStream && r.live.effectStream == l.effectStream
    ensures id !in r.live.peers
    ensures forall k :: k in r.live.peers <==> k in l.peers && k != id
    ensures forall k :: k in r.live.peers ==> r.live.peers[k] == l.peers[k]
    ensures id in l.peers ==> r.closed == map[id := l.peers[id].(closed := true)]
    ensures id !in l.peers ==> r.live == l && r.closed == map[]
  {
    if id in l.peers then
      Outcome(l.(peers := l.peers - {id}), [], map[id := l.peers[id].(closed := true)], false)
    else Outcome(l, [], map[], false)
  }

  /** `signal`: an unknown sender first gets a responder peer (with local
      tracks iff a stream exists); a known sender's peer is reused. An
      offer the browser accepts is answered with exactly one `signal` back
      to the sender carrying the local answer; answers, candidates and
      rejected descriptions emit nothing. */
  function OnSignal(l: Live, sender: ConnId, payload: SignalPayload, answerSdp: string, accepted: bool): (r: Outcome)
    ensures r.closed == map[] && !r.stopTracks
    ensures r.live.mode == l.mode && r.live.status == l.status
    ensures r.live.hasStream == l.hasStream && r.live.effectStream == l.effectStream
    ensures sender in r.live.peers
    ensures sender in l.peers ==> r.live.peers == l.peers
    ensures sender !in l.peers ==> r.live.peers == l.peers[sender := Peer(false, l.hasStream, false)]
    ensures r.sent != [] <==> payload.Description? && payload.kind == "offer" && accepted
    ensures r.sent != [] ==> r.sent == [SignalTo(Some(sender), Description("answer", answerSdp), None)]
  {
    var l1 := if sender !in l.peers then CreatePeer(l, sender, l.hasStream, false) else l;
    var sent := match payload
      case Description(kind, _) =>
        if kind == "offer" && accepted then [SignalTo(Some(sender), Description("answer", answerSdp), None)] else []
      case IceCandidate(_) => [];
    Outcome(l1, sent, map[], false)
  }

  /** `onnegotiationneeded`, installed only on initiator peers: the offer
      the browser produced goes to the peer's target. A closed (removed)
      peer no longer negotiates. */
  function OnNegotiationNeeded(l: Live, target: ConnId, offerSdp: string, ok: bool): (r: Outcome)
    ensures r.live == l && r.closed == map[]
    ensures r.sent != [] <==> target in l.peers && l.peers[target].initiator && ok
    ensures r.sent != [] ==> r.sent == [SignalTo(Some(target), Description("offer", offerSdp), None)]
  {
    if target in l.peers && l.peers[target].initiator && ok then
      Outcome(l, [SignalTo(Some(target), Description("offer", offerSdp), None)], map[], false)
    else Outcome(l, [], map[], false)
  }

  /** `onicecandidate`: a non-null candidate is signalled to the peer's
      target; the end-of-candidates null is not. */
  function OnIceCandidate(l: Live, target: ConnId, candidate: Option<string>): (r: Outcome)
    ensures r.live == l && r.closed == map[]
    ensures r.sent != [] <==> candidate.Some?
    ensures r.sent != [] ==> r.sent == [SignalTo(Some(target), IceCandidate(candidate.value), None)]
  {
    match candidate
    case Some(c) => Outcome(l, [SignalTo(Some(target), IceCandidate(c), None)], map[], false)
    case None => Outcome(l, [], map[], false)
  }

  /** `ontrack`: only a viewer reports the connection in its status. */
  function OnTrack(l: Live, target: ConnId): (r: Outcome)
    ensures r.sent == [] && r.closed == map[] && !r.stopTracks
    ensures r.live.peers == l.peers && r.live.mode == l.mode
    ensures r.live.hasStream == l.hasStream && r.live.effectStream == l.effectStream
    ensures l.mode == View ==> r.live.status == StatusConnected
    ensures l.mode != View ==> r.live == l
  {
    if l.mode == View then Outcome(l.(status := StatusConnected), [], map[], false) else Outcome(l, [], map[], false)
  }

  /** What the cleanup did: the state left behind, the peers it closed and
      whether it stopped the captured stream's tracks. */
  datatype Teardown = Teardown(live: Live, closed: map<ConnId, Peer>, stopTracks: bool)

  /** The mode effect's cleanup, on a mode change or on unmount: the
      tracks of the stream that the effect's run saw are stopped, which may
      be none even though a stream is held now; every peer is closed and
      the registry is left empty. */
  function Cleanup(l: Live): (r: Teardown)
    ensures r.live.peers == map[]
    ensures r.live.mode == l.mode && r.live.hasStream == l.hasStream && r.live.status == l.status
    ensures r.closed.Keys == l.peers.Keys
    ensures forall k :: k in r.closed ==> r.closed[k] == l.peers[k].(closed := true)
    ensures r.stopTracks == l.effectStream
  {
    var closed := map k | k in l.peers :: l.peers[k].(closed := true);
    Teardown(l.(peers := map[]), closed, l.effectStream)
  }

  /** The events a mounted component handles. */
  datatype LiveEvent =
    | Capture(granted: bool, hasSocket: bool)
    | Switch(to: Mode)
    | Joined(id: ConnId)
    | Left(id: ConnId)
    | Signal(sender: ConnId, payload: SignalPayload, answerSdp: string, accepted: bool)
    | Negotiation(target: ConnId, offerSdp: string, ok: bool)
    | Ice(target: ConnId, candidate: Option<string>)
    | Track(target: ConnId)

  /** One event for the component in its current mode. In stored mode the
      component is not mounted, so only a mode change does anything. */
  function Handle(l: Live, ev: LiveEvent): Outcome {
    if l.mode == Stored && !ev.Switch? then Outcome(l, [], map[], false)
    else match ev
    case Capture(g, sock) => StartCapture(l, g, sock)
    case Switch(m) => SwitchMode(l, m)
    case Joined(id) => OnUserConnected(l, id)
    case Left(id) => OnUserDisconnected(l, id)
    case Signal(s, p, a, ok) => OnSignal(l, s, p, a, ok)
    case Negotiation(t, o, ok) => OnNegotiationNeeded(l, t, o, ok)
    case Ice(t, c) => OnIceCandidate(l, t, c)
    case Track(t) => OnTrack(l, t)
  }

  /** The registry invariant: every registered peer is open; local tracks
      were only ever added from a captured stream; only a broadcaster with a
      stream initiates. A viewer may hold a stream captured while it was
      broadcasting. */
  predicate WellFormed(l: Live) {
    forall k :: k in l.peers ==>
      && !l.peers[k].closed
      && (l.peers[k].hasLocalTracks ==> l.hasStream)
      && (l.peers[k].initiator ==> l.mode == Broadcast && l.hasStream && l.peers[k].hasLocalTracks)
  }

  lemma MountWellFormed(mode: Mode)
    ensures WellFormed(Mount(mode)) && Mount(mode).peers == map[]
  {
  }

  /** Every handler keeps the invariant; only a switch changes the mode. */
  lemma HandleKeepsWellFormed(l: Live, ev: LiveEvent)
    requires WellFormed(l)
    ensures WellFormed(Handle(l, ev).live)
    ensures !ev.Switch? ==> Handle(l, ev).live.mode == l.mode
    ensures ev.Switch? ==> Handle(l, ev).live.mode == ev.to
    ensures Handle(l, ev).stopTracks ==> ev.Switch?
    ensures l.mode == Stored && !ev.Switch? ==> Handle(l, ev) == Outcome(l, [], map[], false)
  {
  }

  /** The events of a run, in order; messages are concatenated. */
  function RunLive(l: Live, evs: seq<LiveEvent>): Outcome
    decreases |evs|
  {
    if evs == [] then Outcome(l, [], map[], false)
    else
      var first := Handle(l, evs[0]);
      var rest := RunLive(first.live, evs[1..]);
      Outcome(rest.live, first.sent + rest.sent, first.closed + rest.closed, first.stopTracks || rest.stopTracks)
  }

  /** While it stays a viewer, a component never offers: every description
      it sends is an answer. */
  lemma {:induction false} ViewerOnlyAnswers(l: Live, evs: seq<LiveEvent>)
    requires WellFormed(l) && l.mode == View
    requires forall k :: 0 <= k < |evs| ==> !evs[k].Switch?
    ensures WellFormed(RunLive(l, evs).live)
    ensures forall m :: m in RunLive(l, evs).sent && m.SignalTo? && m.signal.Description? ==> m.signal.kind == "answer"
    decreases |evs|
  {
    if evs != [] {
      var first := Handle(l, evs[0]);
      HandleKeepsWellFormed(l, evs[0]);
      ViewerOnlyAnswers(first.live, evs[1..]);
    }
  }

  /** Every run keeps the registry invariant, so the registry never holds a
      closed peer; without a switch the mode stays. */
  lemma {:induction false} RunKeepsWellFormed(l: Live, evs: seq<LiveEvent>)
    requires WellFormed(l)
    ensures WellFormed(RunLive(l, evs).live)
    ensures (forall k :: 0 <= k < |evs| ==> !evs[k].Switch?) ==> RunLive(l, evs).live.mode == l.mode
    decreases |evs|
  {
    if evs != [] {
      HandleKeepsWellFormed(l, evs[0]);
      RunKeepsWellFormed(Handle(l, evs[0]).live, evs[1..]);
    }
  }

  /** A broadcaster that switches to viewing keeps its camera stream, so
      the responder peer it creates for the next offer carries camera
      tracks. */
  lemma ViewerKeepsCameraAfterSwitch(l: Live, sender: ConnId, offer: string, answer: string)
    requires l.mode == Broadcast
    ensures var l1 := StartCapture(l, true, true).live;
      var l2 := SwitchMode(l1, View).live;
      var l3 := OnSignal(l2, sender, Description("offer", offer), answer, true).live;
      && l2.mode == View && l2.hasStream && l2.peers == map[]
      && l3.peers[sender] == Peer(false, true, false)
  {
  }

  /** The camera is stopped one switch late. Capturing after a broadcast
      mount leaves the mount's cleanup without a stream, so switching to
      viewing stops nothing; the viewing run sees the stream, so switching
      back to broadcasting stops its tracks while the stream state still
      reports it held. */
  lemma SwitchBackStopsCamera(l: Live)
    requires l.mode == Broadcast && !l.effectStream
    ensures var l1 := StartCapture(l, true, true).live;
      var toView := SwitchMode(l1, View);
      var back := SwitchMode(toView.live, Broadcast);
      && !toView.stopTracks
      && back.stopTracks && back.live.hasStream
  {
  }

  /** Exiting to the player unmounts the component, and the camera is
      never stopped: after a broadcast mount the cleanup saw no stream, so
      the camera captured later stays on. Coming back mounts afresh with
      no stream, so a newcomer gets no peer until the camera is captured
      again. */
  lemma ExitLeaksCamera(l: Live, id: ConnId)
    requires l.mode == Broadcast && !l.effectStream
    ensures var l1 := StartCapture(l, true, true).live;
      var exit := SwitchMode(l1, Stored);
      var back := SwitchMode(exit.live, Broadcast).live;
      && l1.hasStream && !exit.stopTracks && exit.live.peers == map[]
      && back == Mount(Broadcast)
      && OnUserConnected(back, id).live.peers == map[]
  {
  }
}

=== FILE: playback.dfy ===
/** The server's shared playback state machine (server/index.js): one global
    record mutated by changeSource, play, pause and seek, and the
    extrapolating snapshot a joining client asks for. Clock readings are
    integer milliseconds, positions exact seconds. */
module Playback {
  import opened Base
  import opened Protocol

  /** The record as the server starts: no source, paused, at 0. */
  function Initial(now: int): PlaybackState {
    PlaybackState(None, false, 0.0, now)
  }

  /** Until the first transition, a joining client is told there is no
      source, nothing plays and the position is 0, however late it asks. */
  lemma InitialReportsNothing(started: int, now: int)
    ensures var r := Snapshot(Initial(started), now);
      r.url == None && !r.isPlaying && r.timestamp == 0.0
  {
  }

  /** Seconds between two millisecond clock readings. */
  function Elapsed(from: int, to: int): real {
    (to - from) as real / 1000.0
  }

  /** The position the server reports at clock reading `now`: extrapolated
      by the elapsed time while playing, the stored position while paused. */
  function PositionAt(s: PlaybackState, now: int): real {
    if s.isPlaying then s.timestamp + Elapsed(s.lastUpdated, now) else s.timestamp
  }

  /** The reply to `video:getState`: the record with its position brought
      up to `now`, every other field copied. */
  function Snapshot(s: PlaybackState, now: int): (r: PlaybackState)
    ensures r.url == s.url && r.isPlaying == s.isPlaying && r.lastUpdated == s.lastUpdated
    ensures s.isPlaying ==> r.timestamp - s.timestamp == Elapsed(s.lastUpdated, now)
    ensures !s.isPlaying ==> r.timestamp == s.timestamp
  {
    s.(timestamp := PositionAt(s, now))
  }

  /** `video:changeSource`: the whole record is replaced; the new video
      plays from 0 as of `now`, whatever was there before. */
  function ChangeSourceTo(s: PlaybackState, v: Video, now: int): (r: PlaybackState)
    ensures r.url == Some(v.url) && r.isPlaying && r.lastUpdated == now
    ensures forall t :: PositionAt(r, t) == Elapsed(now, t)
  {
    PlaybackState(Some(v.url), true, 0.0, now)
  }

  /** `video:play`: playing from `time` as of `now`; the source is kept. */
  function PlayAt(s: PlaybackState, time: real, now: int): (r: PlaybackState)
    ensures r.url == s.url && r.isPlaying && r.lastUpdated == now
    ensures forall t :: PositionAt(r, t) == time + Elapsed(now, t)
  {
    s.(isPlaying := true, timestamp := time, lastUpdated := now)
  }

  /** `video:pause`: paused as of `now`; the stored position changes only
      when the message carries a number. */
  function PauseAt(s: PlaybackState, time: Option<real>, now: int): (r: PlaybackState)
    ensures r.url == s.url && !r.isPlaying && r.lastUpdated == now
    ensures time.Some? ==> forall t :: PositionAt(r, t) == time.value
    ensures time.None? ==> forall t :: PositionAt(r, t) == s.timestamp
  {
    var pos := if time.Some? then time.value else s.timestamp;
    s.(isPlaying := false, timestamp := pos, lastUpdated := now)
  }

  /** `video:seek`: the position is `time` as of `now`; play/pause and the
      source are kept. */
  function SeekTo(s: PlaybackState, time: real, now: int): (r: PlaybackState)
    ensures r.url == s.url && r.isPlaying == s.isPlaying && r.lastUpdated == now
    ensures PositionAt(r, now) == time
    ensures forall t :: PositionAt(r, t) == time + (if s.isPlaying then Elapsed(now, t) else 0.0)
  {
    s.(timestamp := time, lastUpdated := now)
  }

  /** The effect of one client message on the record; only the four
      transitions change it. */
  function Apply(s: PlaybackState, msg: ClientMsg, now: int): (r: PlaybackState)
    ensures !msg.IsTransition() ==> r == s
    ensures msg.IsTransition() ==> r.lastUpdated == now
  {
    match msg
    case ChangeSource(v) => ChangeSourceTo(s, v, now)
    case Play(t) => PlayAt(s, t, now)
    case Pause(t) => PauseAt(s, t, now)
    case Seek(t) => SeekTo(s, t, now)
    case _ => s
  }

  /** A client message together with the clock reading at which the server
      handled it. */
  datatype Stamped = Stamped(msg: ClientMsg, at: int)

  /** The record after the server handles `evs` in arrival order. */
  function Run(s: PlaybackState, evs: seq<Stamped>): PlaybackState
    decreases |evs|
  {
    if evs == [] then s else Run(Apply(s, evs[0].msg, evs[0].at), evs[1..])
  }

  /** Reference definition: the url of the most recent changeSource in
      `evs`, or `initial` when there is none. */
  function LastSource(evs: seq<Stamped>, initial: Option<string>): Option<string>
    decreases |evs|
  {
    if evs == [] then initial
    else if evs[|evs| - 1].msg.ChangeSource? then Some(evs[|evs| - 1].msg.video.url)
    else LastSource(evs[..|evs| - 1], initial)
  }

  /** Reference definition: whether the most recent play-state-setting
      message (changeSource or play: playing; pause: paused) left the video
      playing; seeks and other messages do not decide it. */
  function LastPlaying(evs: seq<Stamped>, initial: bool): bool
    decreases |evs|
  {
    if evs == [] then initial
    else
      var m := evs[|evs| - 1].msg;
      if m.ChangeSource? || m.Play? then true
      else if m.Pause? then false
      else LastPlaying(evs[..|evs| - 1], initial)
  }

  /** Handling one more message extends the run by one step. */
  lemma {:induction false} RunSnoc(s: PlaybackState, evs: seq<Stamped>, e: Stamped)
    ensures Run(s, evs + [e]) == Apply(Run(s, evs), e.msg, e.at)
    decreases |evs|
  {
    if evs == [] {
      assert evs + [e] == [e];
    } else {
      assert (evs + [e])[1..] == evs[1..] + [e];
      RunSnoc(Apply(s, evs[0].msg, evs[0].at), evs[1..], e);
    }
  }

  /** Last write wins for the source: the url after any history is the one
      the latest changeSource set. */
  lemma {:induction false} RunSource(s: PlaybackState, evs: seq<Stamped>)
    ensures Run(s, evs).url == LastSource(evs, s.url)
    decreases |evs|
  {
    if evs != [] {
      var init, e := evs[..|evs| - 1], evs[|evs| - 1];
      assert evs == init + [e];
      RunSnoc(s, init, e);
      RunSource(s, init);
    }
  }

  /** Last write wins for play/pause: seeks never decide it. */
  lemma {:induction false} RunPlaying(s: PlaybackState, evs: seq<Stamped>)
    ensures Run(s, evs).isPlaying == LastPlaying(evs, s.isPlaying)
    decreases |evs|
  {
    if evs != [] {
      var init, e := evs[..|evs| - 1], evs[|evs| - 1];
      assert evs == init + [e];
      RunSnoc(s, init, e);
      RunPlaying(s, init);
    }
  }

  /** A changeSource erases all history: two servers that have seen
      anything at all agree once both handle the same changeSource. */
  lemma ChangeSourceErasesHistory(s1: PlaybackState, evs1: seq<Stamped>, s2: PlaybackState, evs2: seq<Stamped>, v: Video, now: int)
    ensures Run(s1, evs1 + [Stamped(ChangeSource(v), now)]) == Run(s2, evs2 + [Stamped(ChangeSource(v), now)])
  {
    RunSnoc(s1, evs1, Stamped(ChangeSource(v), now));
    RunSnoc(s2, evs2, Stamped(ChangeSource(v), now));
  }

  /** A play overrides an earlier seek completely. */
  lemma PlayAbsorbsSeek(s: PlaybackState, a: real, n1: int, b: real, n2: int)
    ensures PlayAt(SeekTo(s, a, n1), b, n2) == PlayAt(s, b, n2)
  {
  }

  /** A seek after a play keeps the video playing, now from the seek
      position. */
  lemma SeekAfterPlayKeepsPlaying(s: PlaybackState, a: real, n1: int, b: real, n2: int)
    ensures var r := SeekTo(PlayAt(s, a, n1), b, n2);
      r.isPlaying && forall t :: PositionAt(r, t) == b + Elapsed(n2, t)
  {
  }

  /** The snapshot is a consistent re-anchoring: a record anchored at the
      snapshot's position as of `now` reports the same position as the
      original at every later reading. */
  lemma SnapshotReanchors(s: PlaybackState, now: int, t: int)
    ensures PositionAt(Snapshot(s, now).(lastUpdated := now), t) == PositionAt(s, t)
  {
  }

  /** While playing, the reported position advances one second per second. */
  lemma PlayingPositionAdvances(s: PlaybackState, t: int, d: nat)
    requires s.isPlaying
    ensures PositionAt(s, t + d) == PositionAt(s, t) + d as real / 1000.0
  {
  }

  /** A pause that carries no position stores the position of the last
      anchor, not the extrapolated one: after playing for a while, the
      reported position moves back by the time played since that anchor. */
  lemma PauseWithoutPositionRewinds(s: PlaybackState, now: int)
    requires s.isPlaying && now > s.lastUpdated
    ensures PositionAt(PauseAt(s, None, now), now) == PositionAt(s, now) - Elapsed(s.lastUpdated, now)
    ensures PositionAt(PauseAt(s, None, now), now) < PositionAt(s, now)
  {
  }
}

=== FILE: player_sync.dfy ===
/** The playback sync client (client/src/components/VideoPlayer.jsx). Local
    player events are forwarded to the server unless the `isRemoteUpdate`
    flag is set; remote events set the flag and drive the player. The flag
    is modelled exactly as the component keeps it: the only assignments
    that clear it run when it is already clear, so once a remote event has
    reached a live player the client never forwards a local event again.
    Calls into video.js are recorded as a trace of `PlayerCall`s. */
module PlayerSync {
  import opened Base
  import opened Protocol

  /** Drift, in seconds, that a remote play tolerates before seeking. */
  const Tolerance: real := 0.5

  /** What the model tracks of a video.js player. */
  datatype Player = Player(currentTime: real, paused: bool, disposed: bool, autoplay: bool, sources: seq<Source>)

  /** The calls the component makes on the player. */
  datatype PlayerCall =
    | CallPlay
    | CallPause
    | CallSeek(time: real)
    | CallAutoplay(on: bool)
    | CallSource(sources: seq<Source>)

  /** The effect of one call on the tracked player; loading a source
      rewinds to 0 and pauses, as the media load algorithm does. */
  function Perform(p: Player, c: PlayerCall): Player {
    match c
    case CallPlay => p.(paused := false)
    case CallPause => p.(paused := true)
    case CallSeek(t) => p.(currentTime := t)
    case CallAutoplay(on) => p.(autoplay := on)
    case CallSource(srcs) => p.(sources := srcs, currentTime := 0.0, paused := true)
  }

  function PerformAll(p: Player, calls: seq<PlayerCall>): Player
    decreases |calls|
  {
    if calls == [] then p else PerformAll(Perform(p, calls[0]), calls[1..])
  }

  /** Unfolds `PerformAll` on the short call lists the handlers make. */
  lemma PerformShort(p: Player, calls: seq<PlayerCall>)
    ensures |calls| == 1 ==> PerformAll(p, calls) == Perform(p, calls[0])
    ensures |calls| == 2 ==> PerformAll(p, calls) == Perform(Perform(p, calls[0]), calls[1])
    ensures |calls| == 3 ==> PerformAll(p, calls) == Perform(Perform(Perform(p, calls[0]), calls[1]), calls[2])
  {
    if 1 <= |calls| <= 3 {
      var q := Perform(p, calls[0]);
      var tail := calls[1..];
      if |tail| >= 1 {
        var q2 := Perform(q, tail[0]);
        assert PerformAll(q, tail) == PerformAll(q2, tail[1..]);
        if |tail| == 2 {
          assert PerformAll(q2, tail[1..]) == PerformAll(Perform(q2, tail[1]), tail[2..]);
        }
      }
    }
  }

  /** The component's state: the flag, the player (`playerRef`, absent
      until initialised) and whether a socket is connected. */
  datatype Sync = Sync(remoteUpdate: bool, player: Option<Player>, hasSocket: bool)

  predicate Live(s: Sync) {
    s.player.Some? && !s.player.value.disposed
  }

  /** What a handler did: the new state, the player calls, the messages
      emitted to the server. */
  datatype Reaction = Reaction(sync: Sync, calls: seq<PlayerCall>, sent: seq<ClientMsg>)

  datatype LocalEvent = PlayEvent | PauseEvent | SeekedEvent

  datatype RemoteEvent = RemotePlay(time: real) | RemotePause | RemoteSeek(time: real)

  function Abs(x: real): real {
    if x < 0.0 then -x else x
  }

  /** The message a forwarded local event becomes: play and seek carry the
      current position, pause carries none. */
  function Forwarded(ev: LocalEvent, currentTime: real): ClientMsg {
    match ev
    case PlayEvent => Play(currentTime)
    case PauseEvent => Pause(None)
    case SeekedEvent => Seek(currentTime)
  }

  /** The `play`, `pause` and `seeked` listeners. While the flag is set they
      return at once. Otherwise they emit when a socket exists and the
      player is not disposed, then clear the flag, which is already clear:
      no local event ever changes the state. */
  function OnLocal(s: Sync, ev: LocalEvent): (r: Reaction)
    requires s.player.Some?
    ensures r.sync == s && r.calls == []
    ensures r.sent != [] <==> !s.remoteUpdate && s.hasSocket && !s.player.value.disposed
    ensures r.sent != [] ==> r.sent == [Forwarded(ev, s.player.value.currentTime)]
  {
    if s.remoteUpdate then Reaction(s, [], [])
    else
      var sent := if s.hasSocket && !s.player.value.disposed then [Forwarded(ev, s.player.value.currentTime)] else [];
      Reaction(s.(remoteUpdate := false), [], sent)
  }

  /** The calls a remote event makes on a live player. */
  function RemoteCalls(p: Player, ev: RemoteEvent): seq<PlayerCall> {
    match ev
    case RemotePlay(t) => (if Abs(p.currentTime - t) > Tolerance then [CallSeek(t)] else []) + [CallPlay]
    case RemotePause => [CallPause]
    case RemoteSeek(t) => [CallSeek(t)]
  }

  /** The `video:play`, `video:pause` and `video:seek` socket listeners.
      Without a live player nothing happens. Otherwise the flag is set
      before the player is touched; a remote play seeks only when the drift
      exceeds the tolerance and then always plays; a remote seek always
      seeks. Remote events never emit. */
  function OnRemote(s: Sync, ev: RemoteEvent): (r: Reaction)
    ensures r.sent == []
    ensures !Live(s) ==> r == Reaction(s, [], [])
    ensures Live(s) ==> r.sync.remoteUpdate && r.sync.hasSocket == s.hasSocket
    ensures Live(s) ==> r.sync.player == Some(PerformAll(s.player.value, r.calls))
    ensures Live(s) && ev.RemotePlay? ==>
      var before, after := s.player.value, r.sync.player.value;
      && !after.paused
      && Abs(after.currentTime - ev.time) <= Tolerance
      && (CallSeek(ev.time) in r.calls <==> Abs(before.currentTime - ev.time) > Tolerance)
      && (Abs(before.currentTime - ev.time) <= Tolerance ==> after.currentTime == before.currentTime)
    ensures Live(s) && ev.RemotePause? ==> r.calls == [CallPause] && r.sync.player.value.paused
    ensures Live(s) && ev.RemoteSeek? ==> r.calls == [CallSeek(ev.time)] && r.sync.player.value.currentTime == ev.time
  {
    if !Live(s) then Reaction(s, [], [])
    else
      var calls := RemoteCalls(s.player.value, ev);
      PerformShort(s.player.value, calls);
      Reaction(s.(remoteUpdate := true, player := Some(PerformAll(s.player.value, calls))), calls, [])
  }

  /** The `isActive` effect: hiding a live player pauses it. */
  function OnActive(s: Sync, active: bool): (r: Reaction)
    ensures r.sent == [] && r.sync.remoteUpdate == s.remoteUpdate
    ensures r.sync.player.Some? == s.player.Some?
    ensures r.calls == (if !active && Live(s) then [CallPause] else [])
    ensures !active && Live(s) ==> r.sync.player.value.paused
  {
    if !active && Live(s) then
      PerformShort(s.player.value, [CallPause]);
      Reaction(s.(player := Some(PerformAll(s.player.value, [CallPause]))), [CallPause], [])
    else Reaction(s, [], [])
  }

  /** The options effect: the first run creates the player from the
      options; later runs on a live player set autoplay and the sources and
      attempt to play iff autoplay is on; a disposed player is left alone. */
  function OnOptions(s: Sync, opts: Options): (r: Reaction)
    ensures r.sent == [] && r.sync.remoteUpdate == s.remoteUpdate
    ensures r.sync.player.Some?
    ensures s.player.None? ==> r.calls == [] && r.sync.player.value.sources == opts.sources
    ensures Live(s) ==> r.sync.player.value.sources == opts.sources && (CallPlay in r.calls <==> opts.autoplay)
    ensures Live(s) ==> r.sync.player.value.paused == !opts.autoplay
    ensures s.player.Some? && !Live(s) ==> r == Reaction(s, [], [])
  {
    match s.player
    case None =>
      Reaction(s.(player := Some(Player(0.0, true, false, opts.autoplay, opts.sources))), [], [])
    case Some(p) =>
      if p.disposed then Reaction(s, [], [])
      else
        var calls := [CallAutoplay(opts.autoplay), CallSource(opts.sources)] + (if opts.autoplay then [CallPlay] else []);
        PerformShort(p, calls);
        Reaction(s.(player := Some(PerformAll(p, calls))), calls, [])
  }

  /** The unmount cleanup: a live player is disposed and the reference
      dropped; an absent or already disposed player is left as it is. */
  function Unmount(s: Sync): (r: Sync)
    ensures r.remoteUpdate == s.remoteUpdate && r.hasSocket == s.hasSocket
    ensures !Live(r)
    ensures Live(s) <==> r.player.None? && s.player.Some?
    ensures !Live(s) ==> r == s
  {
    if Live(s) then s.(player := None) else s
  }

  datatype SyncEvent =
    | Local(local: LocalEvent)
    | Remote(remote: RemoteEvent)
    | Activity(active: bool)
    | NewOptions(options: Options)

  /** One event; local listeners exist only once the player does. */
  function Handle(s: Sync, ev: SyncEvent): (r: Reaction)
    ensures s.remoteUpdate ==> r.sync.remoteUpdate
    ensures r.sent != [] ==> ev.Local? && !s.remoteUpdate
  {
    match ev
    case Local(e) => if s.player.None? then Reaction(s, [], []) else OnLocal(s, e)
    case Remote(e) => OnRemote(s, e)
    case Activity(a) => OnActive(s, a)
    case NewOptions(o) => OnOptions(s, o)
  }

  /** A run of events in order; calls and messages are concatenated. */
  function RunSync(s: Sync, evs: seq<SyncEvent>): Reaction
    decreases |evs|
  {
    if evs == [] then Reaction(s, [], [])
    else
      var first := Handle(s, evs[0]);
      var rest := RunSync(first.sync, evs[1..]);
      Reaction(rest.sync, first.calls + rest.calls, first.sent + rest.sent)
  }

  /** No handler clears the flag: once set, it stays set through any run,
      and the client emits nothing more. */
  lemma {:induction false} FlagStaysSet(s: Sync, evs: seq<SyncEvent>)
    requires s.remoteUpdate
    ensures RunSync(s, evs).sync.remoteUpdate
    ensures RunSync(s, evs).sent == []
    decreases |evs|
  {
    if evs != [] {
      FlagStaysSet(Handle(s, evs[0]).sync, evs[1..]);
    }
  }

  /** Feedback suppression: after a remote event reaches a live player, no
      later event, including the ones the player fires in response to the
      remote change, is emitted back to the server. */
  lemma RemoteUpdateSilencesClient(s: Sync, e: RemoteEvent, later: seq<SyncEvent>)
    requires Live(s)
    ensures RunSync(s, [Remote(e)] + later).sent == []
  {
    var first := Handle(s, Remote(e));
    FlagStaysSet(first.sync, later);
    assert ([Remote(e)] + later)[1..] == later;
  }

  /** Without remote events the flag keeps its value. */
  lemma {:induction false} NoRemoteKeepsFlag(s: Sync, evs: seq<SyncEvent>)
    requires forall k :: 0 <= k < |evs| ==> !evs[k].Remote?
    ensures RunSync(s, evs).sync.remoteUpdate == s.remoteUpdate
    decreases |evs|
  {
    if evs != [] {
      NoRemoteKeepsFlag(Handle(s, evs[0]).sync, evs[1..]);
    }
  }
}

=== FILE: protocol.dfy ===
/** The socket.io events exchanged between a browser and the relay server,
    and the shared playback record the server keeps. */
module Protocol {
  import opened Base

  /** The server's single global playback record: which video, whether it
      plays, the position in seconds as of `lastUpdated` (milliseconds). */
  datatype PlaybackState = PlaybackState(url: Option<string>, isPlaying: bool, timestamp: real, lastUpdated: int)

  /** Events a client emits to the server. `Pause` may or may not carry a
      position; `SignalTo` may carry a client-claimed sender, which the
      server ignores. */
  datatype ClientMsg =
    | ChatSend(message: ChatMessage)
    | ChangeSource(video: Video)
    | GetState
    | Play(time: real)
    | Pause(position: Option<real>)
    | Seek(time: real)
    | JoinStream(room: string)
    | SignalTo(target: Option<ConnId>, signal: SignalPayload, claimedSender: Option<ConnId>)
  {
    /** The four messages that mutate the playback record. */
    predicate IsTransition() {
      ChangeSource? || Play? || Pause? || Seek?
    }
  }

  /** Events the server emits to a client. */
  datatype ServerMsg =
    | ChatOut(message: ChatMessage)
    | SourceOut(video: Video)
    | PlayOut(time: real)
    | PauseOut
    | SeekOut(time: real)
    | SignalFrom(sender: ConnId, signal: SignalPayload)
    | UserConnected(id: ConnId)
    | UserDisconnected(id: ConnId)
    | StateReply(state: PlaybackState)
}

=== FILE: relay.dfy ===
/** The relay server's socket handlers (server/index.js) as one step
    function: a connection, an event and the clock reading go in; the new
    server state and the messages delivered, one per recipient, come out.
    Handlers run one at a time, in arrival order. */
module Relay {
  import opened Base
  import opened Protocol
  import Playback

  /** The global playback record and the connected sockets, in connection
      order. */
  datatype Server = Server(video: PlaybackState, conns: seq<ConnId>)

  /** What a connection can do: arrive, leave, or emit a message. */
  datatype Event = Connect | Disconnect | Receive(msg: ClientMsg)

  datatype Delivery = Delivery(to: ConnId, msg: ServerMsg)

  datatype Step = Step(server: Server, out: seq<Delivery>)

  predicate Distinct(conns: seq<ConnId>) {
    forall i, j :: 0 <= i < j < |conns| ==> conns[i] != conns[j]
  }

  function Start(now: int): Server {
    Server(Playback.Initial(now), [])
  }

  /** The connections that receive at least one delivery. */
  function Recipients(out: seq<Delivery>): set<ConnId> {
    set d | d in out :: d.to
  }

  /** `io.emit`: one delivery of `m` to each connection, in order. */
  function ToAll(conns: seq<ConnId>, m: ServerMsg): (r: seq<Delivery>)
    ensures |r| == |conns|
    ensures forall i :: 0 <= i < |r| ==> r[i].to == conns[i] && r[i].msg == m
    ensures forall c :: c in conns ==> Delivery(c, m) in r
  {
    if conns == [] then []
    else [Delivery(conns[0], m)] + ToAll(conns[1..], m)
  }

  /** The connections other than `c`, in order. */
  function Without(conns: seq<ConnId>, c: ConnId): (r: seq<ConnId>)
    ensures forall x :: x in r <==> x in conns && x != c
    ensures |r| <= |conns|
    ensures Distinct(conns) ==> Distinct(r)
  {
    if conns == [] then []
    else if conns[0] == c then Without(conns[1..], c)
    else
      var rest := Without(conns[1..], c);
      assert Distinct(conns) ==> conns[0] !in conns[1..] by {
        if Distinct(conns) {
          assert forall k :: 0 <= k < |conns[1..]| ==> conns[1..][k] == conns[k + 1];
        }
      }
      [conns[0]] + rest
  }

  /** Every two entries of `r` appear in `conns` in the same order. */
  predicate InOrder(r: seq<ConnId>, conns: seq<ConnId>) {
    forall i, j :: 0 <= i < j < |r| ==> exists p, q :: 0 <= p < q < |conns| && conns[p] == r[i] && conns[q] == r[j]
  }

  /** Leaving a connection out keeps the others in connection order. */
  lemma {:induction false} WithoutKeepsOrder(conns: seq<ConnId>, c: ConnId)
    ensures InOrder(Without(conns, c), conns)
    decreases |conns|
  {
    if conns != [] {
      var tail := conns[1..];
      WithoutKeepsOrder(tail, c);
      var r := Without(conns, c);
      var rest := Without(tail, c);
      forall i, j | 0 <= i < j < |r|
        ensures exists p, q :: 0 <= p < q < |conns| && conns[p] == r[i] && conns[q] == r[j]
      {
        if conns[0] == c {
          var p', q' :| 0 <= p' < q' < |tail| && tail[p'] == r[i] && tail[q'] == r[j];
          assert conns[p' + 1] == r[i] && conns[q' + 1] == r[j];
        } else if i == 0 {
          assert r[j] == rest[j - 1] && rest[j - 1] in rest;
          var q' :| 0 <= q' < |tail| && tail[q'] == r[j];
          assert conns[0] == r[0] && conns[q' + 1] == r[j];
        } else {
          assert r[i] == rest[i - 1] && r[j] == rest[j - 1];
          var p', q' :| 0 <= p' < q' < |tail| && tail[p'] == rest[i - 1] && tail[q'] == rest[j - 1];
          assert conns[p' + 1] == r[i] && conns[q' + 1] == r[j];
        }
      }
    }
  }

  /** `socket.broadcast.emit`: `m` to every connection except the sender,
      once each, in connection order. */
  function ToOthers(conns: seq<ConnId>, sender: ConnId, m: ServerMsg): (r: seq<Delivery>)
    ensures forall d :: d in r ==> d.msg == m && d.to in conns && d.to != sender
    ensures forall c :: c in conns && c != sender ==> Delivery(c, m) in r
    ensures Distinct(conns) ==> forall i, j :: 0 <= i < j < |r| ==> r[i].to != r[j].to
    ensures forall i, j :: 0 <= i < j < |r| ==> exists p, q :: 0 <= p < q < |conns| && conns[p] == r[i].to && conns[q] == r[j].to
  {
    var others := Without(conns, sender);
    var r := ToAll(others, m);
    WithoutKeepsOrder(conns, sender);
    forall d | d in r ensures d.msg == m && d.to in others {
      var i :| 0 <= i < |r| && r[i] == d;
    }
    r
  }

  /** `io.to(target).emit('signal', …)` guarded by `if (target)`: the payload
      goes to the target's own room, stamped with the true sender. */
  function RelaySignal(conns: seq<ConnId>, from: ConnId, target: Option<ConnId>, payload: SignalPayload): (r: seq<Delivery>)
    ensures |r| <= 1
    ensures r != [] <==> Truthy(target) && target.value in conns
    ensures forall d :: d in r ==> d.to == target.value && d.msg == SignalFrom(from, payload)
  {
    if Truthy(target) && target.value in conns then [Delivery(target.value, SignalFrom(from, payload))] else []
  }

  /** One handler run for connection `from` at clock reading `now`. */
  function Handle(s: Server, from: ConnId, ev: Event, now: int): (r: Step)
    ensures ev.Receive? ==> r.server.conns == s.conns
    ensures !(ev.Receive? && ev.msg.IsTransition()) ==> r.server.video == s.video
    ensures ev.Receive? ==> r.server.video == Playback.Apply(s.video, ev.msg, now)
    ensures Distinct(s.conns) ==> Distinct(r.server.conns)
  {
    match ev
    case Connect =>
      Step(s.(conns := if from in s.conns then s.conns else s.conns + [from]), [])
    case Disconnect =>
      Step(s.(conns := Without(s.conns, from)), ToOthers(s.conns, from, UserDisconnected(from)))
    case Receive(msg) =>
      var video := Playback.Apply(s.video, msg, now);
      var out := match msg
        case ChatSend(m) => ToAll(s.conns, ChatOut(m))
        case JoinStream(_) => ToOthers(s.conns, from, UserConnected(from))
        case SignalTo(target, payload, _) => RelaySignal(s.conns, from, target, payload)
        case GetState => [Delivery(from, StateReply(Playback.Snapshot(s.video, now)))]
        case ChangeSource(v) => ToOthers(s.conns, from, SourceOut(v))
        case Play(t) => ToOthers(s.conns, from, PlayOut(t))
        case Pause(_) => ToOthers(s.conns, from, PauseOut)
        case Seek(t) => ToOthers(s.conns, from, SeekOut(t));
      Step(s.(video := video), out)
  }

  /** The server handles a sequence of events in arrival order; the
      deliveries are concatenated in the same order. */
  function RunServer(s: Server, evs: seq<(ConnId, Event, int)>): Step
    decreases |evs|
  {
    if evs == [] then Step(s, [])
    else
      var first := Handle(s, evs[0].0, evs[0].1, evs[0].2);
      var rest := RunServer(first.server, evs[1..]);
      Step(rest.server, first.out + rest.out)
  }

  /** The connection list never holds a socket twice, whatever happens. */
  lemma {:induction false} RunKeepsConnsDistinct(s: Server, evs: seq<(ConnId, Event, int)>)
    requires Distinct(s.conns)
    ensures Distinct(RunServer(s, evs).server.conns)
    decreases |evs|
  {
    if evs != [] {
      var first := Handle(s, evs[0].0, evs[0].1, evs[0].2);
      RunKeepsConnsDistinct(first.server, evs[1..]);
    }
  }

  /** Chat: the message reaches every connection, the sender included,
      verbatim, and nothing else changes. */
  lemma ChatReachesEveryone(s: Server, from: ConnId, m: ChatMessage, now: int)
    ensures var r := Handle(s, from, Receive(ChatSend(m)), now);
      && r.server == s
      && Recipients(r.out) == set c | c in s.conns
      && (forall d :: d in r.out ==> d.msg == ChatOut(m))
      && (from in s.conns ==> Delivery(from, ChatOut(m)) in r.out)
  {
    var r := Handle(s, from, Receive(ChatSend(m)), now);
    forall c | c in s.conns ensures c in Recipients(r.out) {
      assert Delivery(c, ChatOut(m)) in r.out;
    }
  }

  /** Signalling: a truthy target that is connected receives exactly one
      envelope whose sender is the true originator, whatever sender the
      client claimed; otherwise nothing is delivered. The state is
      untouched. */
  lemma SignalGoesOnlyToTarget(s: Server, from: ConnId, target: Option<ConnId>, payload: SignalPayload, claimed: Option<ConnId>, now: int)
    ensures var r := Handle(s, from, Receive(SignalTo(target, payload, claimed)), now);
      && r.server == s
      && (Truthy(target) && target.value in s.conns ==> r.out == [Delivery(target.value, SignalFrom(from, payload))])
      && (!(Truthy(target) && target.value in s.conns) ==> r.out == [])
  {
  }

  /** Signalling ignores the sender a client writes into the payload. */
  lemma SignalIgnoresClaimedSender(s: Server, from: ConnId, target: Option<ConnId>, payload: SignalPayload, c1: Option<ConnId>, c2: Option<ConnId>, now: int)
    ensures Handle(s, from, Receive(SignalTo(target, payload, c1)), now) == Handle(s, from, Receive(SignalTo(target, payload, c2)), now)
  {
  }

  /** Presence: `join-stream` announces the originator to every other
      connection and never to the originator itself. */
  lemma JoinAnnouncedToOthers(s: Server, from: ConnId, room: string, now: int)
    ensures var r := Handle(s, from, Receive(JoinStream(room)), now);
      && r.server == s
      && from !in Recipients(r.out)
      && Recipients(r.out) == (set c | c in s.conns) - {from}
      && (forall d :: d in r.out ==> d.msg == UserConnected(from))
  {
    var r := Handle(s, from, Receive(JoinStream(room)), now);
    forall c | c in s.conns && c != from ensures c in Recipients(r.out) {
      assert Delivery(c, UserConnected(from)) in r.out;
    }
  }

  /** Presence: a disconnect removes the socket and tells every remaining
      connection, never the departed one. */
  lemma DisconnectAnnouncedToOthers(s: Server, from: ConnId, now: int)
    ensures var r := Handle(s, from, Disconnect, now);
      && r.server.video == s.video
      && from !in r.server.conns
      && (forall c :: c in r.server.conns <==> c in s.conns && c != from)
      && Recipients(r.out) == (set c | c in s.conns) - {from}
      && (forall d :: d in r.out ==> d.msg == UserDisconnected(from))
  {
    var r := Handle(s, from, Disconnect, now);
    forall c | c in s.conns && c != from ensures c in Recipients(r.out) {
      assert Delivery(c, UserDisconnected(from)) in r.out;
    }
  }

  /** `video:getState` mutates nothing and answers only the asker, with the
      extrapolated position. */
  lemma GetStateIsReadOnly(s: Server, from: ConnId, now: int)
    ensures var r := Handle(s, from, Receive(GetState), now);
      && r.server == s
      && |r.out| == 1 && r.out[0].to == from
      && r.out[0].msg.StateReply? && r.out[0].msg.state.timestamp == Playback.PositionAt(s.video, now)
  {
  }

  /** The four playback transitions update the record and are echoed to
      every other connection, never to the sender; a pause echo carries no
      position. */
  lemma TransitionsEchoToOthers(s: Server, from: ConnId, msg: ClientMsg, now: int)
    requires msg.IsTransition()
    ensures var r := Handle(s, from, Receive(msg), now);
      var echo := match msg
        case ChangeSource(v) => SourceOut(v)
        case Play(t) => PlayOut(t)
        case Seek(t) => SeekOut(t)
        case _ => PauseOut;
      && r.server.conns == s.conns
      && r.server.video == Playback.Apply(s.video, msg, now)
      && from !in Recipients(r.out)
      && Recipients(r.out) == (set c | c in s.conns) - {from}
      && (forall d :: d in r.out ==> d.msg == echo)
  {
    var r := Handle(s, from, Receive(msg), now);
    var echo := match msg
      case ChangeSource(v) => SourceOut(v)
      case Play(t) => PlayOut(t)
      case Seek(t) => SeekOut(t)
      case _ => PauseOut;
    forall c | c in s.conns && c != from ensures c in Recipients(r.out) {
      assert Delivery(c, echo) in r.out;
    }
  }
}

=== FILE: scenarios.dfy ===
/** End-to-end exchanges between two browsers through the relay server,
    composed from the client handlers and the server's step function: what
    one client emits, the server delivers, and the other client does with
    it. */
module Scenarios {
  import opened Base
  import opened Protocol
  import Playback
  import Relay
  import ChatClient
  import PlayerSync
  import VideoSection
  import PeerSession

  /** Chat: a non-blank message typed by `a` is broadcast by the server to
      every connection, `a` included; appended to `a`'s own log it is the
      last entry and is shown as `a`'s own, while another user's log shows
      it as someone else's. */
  lemma ChatRoundTrip(pa: ChatClient.Panel, pb: ChatClient.Panel, srv: Relay.Server, a: ConnId, b: ConnId, id: int, time: string, now: int)
    requires !AllSpace(pa.input) && a in srv.conns && b in srv.conns
    requires pb.username != pa.username
    ensures var out := ChatClient.SendMessage(pa, true, id, time);
      && out.sent != [] && out.sent[0].ChatSend?
      && var m := out.sent[0].message;
      && var step := Relay.Handle(srv, a, Relay.Receive(out.sent[0]), now);
      && Relay.Delivery(a, ChatOut(m)) in step.out
      && Relay.Delivery(b, ChatOut(m)) in step.out
      && var mine := ChatClient.HandleMessage(out.panel, m);
      && mine.messages[|mine.messages| - 1] == m
      && ChatClient.IsOwn(mine, m)
      && !ChatClient.IsOwn(ChatClient.HandleMessage(pb, m), m)
  {
    var out := ChatClient.SendMessage(pa, true, id, time);
    var m := ChatMessage(id, pa.username, ChatClient.Trim(pa.input), time);
    assert out.sent == [ChatSend(m)] && out.panel.username == pa.username;
    ChatReaches(srv, a, b, m, now);
  }

  /** The server's chat broadcast, as the chat exchange needs it. */
  lemma ChatReaches(srv: Relay.Server, a: ConnId, b: ConnId, m: ChatMessage, now: int)
    requires a in srv.conns && b in srv.conns
    ensures var out := Relay.Handle(srv, a, Relay.Receive(ChatSend(m)), now).out;
      Relay.Delivery(a, ChatOut(m)) in out && Relay.Delivery(b, ChatOut(m)) in out
  {
    Relay.ChatReachesEveryone(srv, a, m, now);
    assert Relay.Delivery(b, ChatOut(m)) in Relay.ToAll(srv.conns, ChatOut(m));
  }

  /** Playback sync: a local play on `a` is forwarded with `a`'s position;
      the server then reports exactly that position at the moment it
      handled the play, and `b`, on receiving the echo, plays within the
      drift tolerance of it, with its own flag now set so that the play
      event its player fires is not sent back. `a` itself gets no echo. */
  lemma PlayReachesPeer(sa: PlayerSync.Sync, sb: PlayerSync.Sync, srv: Relay.Server, a: ConnId, b: ConnId, now: int)
    requires PlayerSync.Live(sa) && !sa.remoteUpdate && sa.hasSocket
    requires PlayerSync.Live(sb)
    requires a != b && b in srv.conns
    ensures var x := sa.player.value.currentTime;
      && PlayerSync.OnLocal(sa, PlayerSync.PlayEvent).sent == [Play(x)]
      && var step := Relay.Handle(srv, a, Relay.Receive(Play(x)), now);
      && Playback.PositionAt(step.server.video, now) == x
      && step.server.video.isPlaying
      && Relay.Delivery(b, PlayOut(x)) in step.out
      && a !in Relay.Recipients(step.out)
      && var rb := PlayerSync.OnRemote(sb, PlayerSync.RemotePlay(x));
      && !rb.sync.player.value.paused
      && PlayerSync.Abs(rb.sync.player.value.currentTime - x) <= PlayerSync.Tolerance
      && PlayerSync.OnLocal(rb.sync, PlayerSync.PlayEvent).sent == []
  {
    var x := sa.player.value.currentTime;
    Relay.TransitionsEchoToOthers(srv, a, Play(x), now);
    var step := Relay.Handle(srv, a, Relay.Receive(Play(x)), now);
    assert b in Relay.Recipients(step.out);
  }

  /** Source change: `a` picks a video and announces it; the server now
      plays it from 0 as of that moment and tells `b`, which selects it
      with autoplay off, so `b`'s live player loads it and stays paused
      while the server records it as playing. */
  lemma SourceChangeReachesPeer(sta: VideoSection.Section, stb: VideoSection.Section, sb: PlayerSync.Sync, srv: Relay.Server, a: ConnId, b: ConnId, v: Video, now: int)
    requires PlayerSync.Live(sb)
    requires a != b && b in srv.conns
    ensures VideoSection.SelectVideo(sta, v, true, true).sent == [ChangeSource(v)]
    ensures var step := Relay.Handle(srv, a, Relay.Receive(ChangeSource(v)), now);
      && step.server.video.url == Some(v.url)
      && step.server.video.isPlaying
      && Playback.PositionAt(step.server.video, now) == 0.0
      && Relay.Delivery(b, SourceOut(v)) in step.out
      && var adopted := VideoSection.OnChangeSource(stb, v);
      && adopted.sent == []
      && adopted.section.selected == Some(v)
      && !adopted.section.options.autoplay
      && var player := PlayerSync.OnOptions(sb, adopted.section.options).sync.player.value;
      && player.sources == VideoSection.SourceFor(v)
      && player.paused
  {
    Relay.TransitionsEchoToOthers(srv, a, ChangeSource(v), now);
    var step := Relay.Handle(srv, a, Relay.Receive(ChangeSource(v)), now);
    assert b in Relay.Recipients(step.out);
  }

  /** Pause: the client's pause carries no position, so the server keeps
      the position of its last anchor; while it was playing, the position it
      reports after the pause is behind the one it reported just before. */
  lemma PauseKeepsOldAnchor(sa: PlayerSync.Sync, srv: Relay.Server, a: ConnId, b: ConnId, now: int)
    requires PlayerSync.Live(sa) && !sa.remoteUpdate && sa.hasSocket
    requires a != b && b in srv.conns
    requires srv.video.isPlaying && now > srv.video.lastUpdated
    ensures PlayerSync.OnLocal(sa, PlayerSync.PauseEvent).sent == [Pause(None)]
    ensures var step := Relay.Handle(srv, a, Relay.Receive(Pause(None)), now);
      && !step.server.video.isPlaying
      && (forall t :: Playback.PositionAt(step.server.video, t) == srv.video.timestamp)
      && Playback.PositionAt(step.server.video, now) < Playback.PositionAt(srv.video, now)
      && Relay.Delivery(b, PauseOut) in step.out
  {
    Relay.TransitionsEchoToOthers(srv, a, Pause(None), now);
    Playback.PauseWithoutPositionRewinds(srv.video, now);
    var step := Relay.Handle(srv, a, Relay.Receive(Pause(None)), now);
    assert b in Relay.Recipients(step.out);
  }

  /** The signalling handshake between a broadcaster `b` with a camera
      stream and a viewer `v`: the viewer's join reaches the broadcaster,
      which creates an initiator peer and offers; the server forwards the
      offer stamped with the broadcaster's id; the viewer creates a
      responder peer and answers; the answer reaches the broadcaster, which
      reuses its peer and emits nothing more. */
  lemma Handshake(lb: PeerSession.Live, lv: PeerSession.Live, srv: Relay.Server, b: ConnId, v: ConnId, offer: string, answer: string, now: int)
    requires lb.mode == Broadcast && lb.hasStream && PeerSession.WellFormed(lb)
    requires lv.mode == View && PeerSession.WellFormed(lv)
    requires b != v && b != "" && v != "" && b in srv.conns && v in srv.conns
    ensures var join := Relay.Handle(srv, v, Relay.Receive(JoinStream(PeerSession.Room)), now);
      Relay.Delivery(b, UserConnected(v)) in join.out
    ensures var lb1 := PeerSession.OnUserConnected(lb, v).live;
      && lb1.peers[v] == PeerSession.Peer(true, true, false)
      && var offered := PeerSession.OnNegotiationNeeded(lb1, v, offer, true);
      && offered.sent == [SignalTo(Some(v), Description("offer", offer), None)]
      && Relay.Handle(srv, b, Relay.Receive(offered.sent[0]), now).out == [Relay.Delivery(v, SignalFrom(b, Description("offer", offer)))]
      && var answered := PeerSession.OnSignal(lv, b, Description("offer", offer), answer, true);
      && answered.sent == [SignalTo(Some(b), Description("answer", answer), None)]
      && !answered.live.peers[b].initiator
      && Relay.Handle(srv, v, Relay.Receive(answered.sent[0]), now).out == [Relay.Delivery(b, SignalFrom(v, Description("answer", answer)))]
      && var done := PeerSession.OnSignal(lb1, v, Description("answer", answer), "", true);
      && done.sent == [] && done.live.peers == lb1.peers
  {
    Relay.JoinAnnouncedToOthers(srv, v, PeerSession.Room, now);
    var join := Relay.Handle(srv, v, Relay.Receive(JoinStream(PeerSession.Room)), now);
    assert b in Relay.Recipients(join.out);
    SignalRelayed(srv, b, v, Description("offer", offer), now);
    SignalRelayed(srv, v, b, Description("answer", answer), now);
  }

  /** A signal addressed to a connected, non-empty id reaches exactly that
      connection, stamped with the true sender. */
  lemma SignalRelayed(srv: Relay.Server, from: ConnId, to: ConnId, payload: SignalPayload, now: int)
    requires to != "" && to in srv.conns
    ensures Relay.Handle(srv, from, Relay.Receive(SignalTo(Some(to), payload, None)), now).out == [Relay.Delivery(to, SignalFrom(from, payload))]
  {
    Relay.SignalGoesOnlyToTarget(srv, from, Some(to), payload, None, now);
  }
}

=== FILE: uploads.dfy ===
/** The pure parts of the server's upload and listing endpoints
    (server/index.js): the stored file name, the mimetype filter, the upload
    reply and the `/videos` listing. The file system itself is not part of
    this model. */
module Uploads {
  import opened Base

  const UploadDir: string := "/uploads/"

  /** The url under which a stored file is served. */
  function UploadUrl(file: string): string {
    UploadDir + file
  }

  /** The inverse of `UploadUrl`: the file a url names, if it names one. */
  function FileOfUrl(url: string): (r: Option<string>)
    ensures r.Some? ==> UploadUrl(r.value) == url
  {
    if IsPrefix(UploadDir, url) then Some(url[|UploadDir|..]) else None
  }

  lemma UrlRoundTrip(file: string)
    ensures FileOfUrl(UploadUrl(file)) == Some(file)
  {
    assert (UploadDir + file)[..|UploadDir|] == UploadDir;
    assert (UploadDir + file)[|UploadDir|..] == file;
  }

  /** `GET /videos`: every directory entry, in directory order, becomes a
      descriptor named after the file whose url serves that file. */
  function ListVideos(files: seq<string>): (r: seq<Video>)
    ensures |r| == |files|
    ensures forall i :: 0 <= i < |r| ==> r[i].name == files[i] && FileOfUrl(r[i].url) == Some(files[i])
  {
    if files == [] then []
    else
      UrlRoundTrip(files[0]);
      [Video(files[0], UploadUrl(files[0]))] + ListVideos(files[1..])
  }

  /** The multer `fileFilter`: only video mimetypes are accepted. */
  predicate AcceptsMime(mime: string) {
    IsPrefix("video/", mime)
  }

  /** The filter accepts exactly the mimetypes of the form "video/…". */
  lemma AcceptsMimeExactly(mime: string)
    ensures AcceptsMime(mime) <==> exists rest :: mime == "video/" + rest
  {
    if AcceptsMime(mime) {
      assert mime == "video/" + mime[6..];
    }
    forall rest | mime == "video/" + rest ensures AcceptsMime(mime) {
      assert mime[..6] == "video/";
    }
  }

  /** `replace(/\s+/g, '_')`: each maximal run of whitespace becomes one
      underscore. */
  function CollapseSpaces(s: string): (r: string)
    ensures NoSpace(r)
    ensures |r| <= |s|
    ensures NoSpace(s) ==> r == s
    decreases |s|
  {
    if s == [] then []
    else if IsSpace(s[0]) then "_" + CollapseSpaces(TrimStart(s[1..]))
    else [s[0]] + CollapseSpaces(s[1..])
  }

  /** The replacement is idempotent: a sanitised name is left as it is. */
  lemma CollapseIdempotent(s: string)
    ensures CollapseSpaces(CollapseSpaces(s)) == CollapseSpaces(s)
  {
  }

  /** A run of whitespace between a whitespace-free word and the rest of
      the name becomes exactly one underscore. */
  lemma {:induction false} RunBecomesOneUnderscore(word: string, run: string, rest: string)
    requires NoSpace(word) && AllSpace(run) && |run| > 0
    requires rest == [] || !IsSpace(rest[0])
    ensures CollapseSpaces(word + run + rest) == word + "_" + CollapseSpaces(rest)
    decreases |word|
  {
    if word == [] {
      assert word + run + rest == run + rest;
      RunAtStart(run, rest);
    } else {
      var x := word + run + rest;
      assert x[0] == word[0] && !IsSpace(x[0]);
      assert x[1..] == word[1..] + run + rest;
      RunBecomesOneUnderscore(word[1..], run, rest);
      assert word == [word[0]] + word[1..];
    }
  }

  /** A name that starts with a whitespace run starts with one underscore. */
  lemma RunAtStart(run: string, rest: string)
    requires AllSpace(run) && |run| > 0
    requires rest == [] || !IsSpace(rest[0])
    ensures CollapseSpaces(run + rest) == "_" + CollapseSpaces(rest)
  {
    var x := run + rest;
    assert IsSpace(x[0]);
    assert x[1..] == run[1..] + rest;
    DropAllSpaces(run[1..], rest);
  }

  /** Dropping leading whitespace skips a whitespace-only prefix and stops
      at the first non-space character. */
  lemma {:induction false} DropAllSpaces(run: string, rest: string)
    requires AllSpace(run)
    requires rest == [] || !IsSpace(rest[0])
    ensures TrimStart(run + rest) == rest
    decreases |run|
  {
    if run != [] {
      assert (run + rest)[1..] == run[1..] + rest;
      DropAllSpaces(run[1..], rest);
    } else {
      assert run + rest == rest;
    }
  }

  /** The multer `filename` callback: a caller-supplied unique prefix (a
      clock reading and a random number), a dash, and the original name
      with whitespace runs replaced. The result never contains whitespace
      after the prefix. */
  function StoredName(prefix: string, original: string): (r: string)
    ensures IsPrefix(prefix + "-", r)
    ensures NoSpace(r[|prefix| + 1..])
    ensures r[|prefix| + 1..] == CollapseSpaces(original)
  {
    var tail := CollapseSpaces(original);
    assert (prefix + "-" + tail)[..|prefix| + 1] == prefix + "-";
    assert (prefix + "-" + tail)[|prefix| + 1..] == tail;
    prefix + "-" + tail
  }

  /** The reply of `POST /upload`. */
  datatype UploadReply = NoFile | Uploaded(filename: string, path: string)

  /** `POST /upload`: with no stored file the request is refused; otherwise
      the reply names the stored file and the url that serves it. */
  function UploadResponse(stored: Option<string>): (r: UploadReply)
    ensures stored.None? <==> r.NoFile?
    ensures r.Uploaded? ==> r.filename == stored.value && FileOfUrl(r.path) == Some(r.filename)
  {
    match stored
    case None => NoFile
    case Some(f) =>
      UrlRoundTrip(f);
      Uploaded(f, UploadUrl(f))
  }

  /** The upload reply and the listing agree: the descriptor the listing
      shows for the stored file has the path the upload returned. */
  lemma UploadedFileIsListed(files: seq<string>, i: nat)
    requires i < |files|
    ensures var reply := UploadResponse(Some(files[i]));
      reply.Uploaded? && ListVideos(files)[i] == Video(reply.filename, reply.path)
  {
    var v := ListVideos(files)[i];
    assert FileOfUrl(v.url) == Some(files[i]);
  }
}

=== FILE: video_section.dfy ===
/** The video section (client/src/components/VideoSection.jsx): the list of
    stored videos, the selected one and the player options built from it,
    the upload flow, list labels, and the switch between the stored player
    and the live stream. HTTP responses are parameters. */
module VideoSection {
  import opened Base
  import opened Protocol

  const Origin: string := "http://localhost:3000"
  const SampleName: string := "sample.mp4"
  const SampleSrc: string := "http://localhost:3000/sample.mp4"
  const Mp4: string := "video/mp4"

  /** Labels longer than this are shortened. */
  const LabelLimit: nat := 20
  /** How many characters a shortened label keeps before the ellipsis. */
  const LabelKeep: nat := 17

  datatype Section = Section(mode: Mode, videos: seq<Video>, selected: Option<Video>, uploading: bool, options: Options)

  /** The state on mount: stored mode, nothing listed or selected, no
      source, autoplay off. */
  function Mount(): Section {
    Section(Stored, [], None, false, Options(false, []))
  }

  /** A handler's effect: the new state and the socket messages emitted. */
  datatype Outcome = Outcome(section: Section, sent: seq<ClientMsg>)

  /** The single mp4 source that plays `v` from the server origin. */
  function SourceFor(v: Video): seq<Source> {
    [Source(Origin + v.url, Mp4)]
  }

  /** `handleSelectVideo`: select `v`, play it from the origin with autoplay
      on, and announce the change iff asked to and a socket exists. */
  function SelectVideo(st: Section, v: Video, emit: bool, hasSocket: bool): (r: Outcome)
    ensures r.section.selected == Some(v) && r.section.options == Options(true, SourceFor(v))
    ensures r.section.mode == st.mode && r.section.videos == st.videos && r.section.uploading == st.uploading
    ensures r.sent != [] <==> emit && hasSocket
    ensures r.sent != [] ==> r.sent == [ChangeSource(v)]
  {
    Outcome(st.(selected := Some(v), options := Options(true, SourceFor(v))), if emit && hasSocket then [ChangeSource(v)] else [])
  }

  /** The `video:changeSource` listener: a remote choice is adopted with
      autoplay off and never re-announced. */
  function OnChangeSource(st: Section, v: Video): (r: Outcome)
    ensures r.sent == []
    ensures r.section.selected == Some(v) && r.section.options == Options(false, SourceFor(v))
    ensures r.section.mode == st.mode && r.section.videos == st.videos && r.section.uploading == st.uploading
  {
    Outcome(st.(selected := Some(v), options := Options(false, SourceFor(v))), [])
  }

  /** A remote source change leads to the same selection and source as a
      silent local one; only autoplay differs. */
  lemma RemoteChangeMatchesLocalSelect(st: Section, v: Video, hasSocket: bool)
    ensures var local := SelectVideo(st, v, false, hasSocket);
      var remote := OnChangeSource(st, v);
      && local.sent == [] && remote.sent == []
      && remote.section == local.section.(options := local.section.options.(autoplay := false))
  {
  }

  /** The index of the first video called `name`, if any. */
  function FirstNamed(videos: seq<Video>, name: string): (r: Option<nat>)
    ensures r.Some? ==> r.value < |videos| && videos[r.value].name == name
    ensures r.Some? ==> forall j :: 0 <= j < r.value ==> videos[j].name != name
    ensures r.None? ==> forall j :: 0 <= j < |videos| ==> videos[j].name != name
  {
    if videos == [] then None
    else if videos[0].name == name then Some(0)
    else match FirstNamed(videos[1..], name)
      case None => None
      case Some(k) => Some(k + 1)
  }

  /** The default of a non-empty list: its first video named after the
      sample file when there is one, otherwise its first video. */
  function DefaultVideo(videos: seq<Video>): (r: Video)
    requires |videos| > 0
    ensures r in videos
    ensures (exists i :: 0 <= i < |videos| && videos[i].name == SampleName) ==>
      exists i :: 0 <= i < |videos| && r == videos[i] && r.name == SampleName
        && forall j :: 0 <= j < i ==> videos[j].name != SampleName
    ensures (forall i :: 0 <= i < |videos| ==> videos[i].name != SampleName) ==> r == videos[0]
  {
    match FirstNamed(videos, SampleName)
    case Some(i) => videos[i]
    case None => videos[0]
  }

  /** What `fetch('/videos')` yields: a list, a non-ok response, or a thrown
      error (network failure or unreadable body). */
  datatype FetchResult = Listed(videos: seq<Video>) | NotOk | Failed

  /** The fallback options: the previous options with the sample file as
      the only source. */
  function Fallback(o: Options): Options {
    o.(sources := [Source(SampleSrc, Mp4)])
  }

  /** `fetchVideos`. A non-empty list is stored and, when nothing is
      selected yet, its default video is selected without announcing it. An
      empty list or a thrown error falls back to the sample file; a non-ok
      response changes nothing. Fetching never emits. */
  function FetchVideos(st: Section, res: FetchResult, hasSocket: bool): (r: Outcome)
    ensures r.sent == []
    ensures r.section.mode == st.mode && r.section.uploading == st.uploading
    ensures res.Listed? && |res.videos| > 0 && st.selected.None? ==>
      var d := DefaultVideo(res.videos);
      r.section.videos == res.videos && r.section.selected == Some(d) && r.section.options == Options(true, SourceFor(d))
    ensures res.Listed? && |res.videos| > 0 && st.selected.Some? ==> r.section == st.(videos := res.videos)
    ensures res.Listed? && |res.videos| == 0 ==> r.section == st.(videos := [], options := Fallback(st.options))
    ensures res.NotOk? ==> r.section == st
    ensures res.Failed? ==> r.section == st.(options := Fallback(st.options))
  {
    match res
    case Listed(vs) =>
      var listed := st.(videos := vs);
      if |vs| > 0 && st.selected.None? then SelectVideo(listed, DefaultVideo(vs), false, hasSocket)
      else if |vs| == 0 then Outcome(listed.(options := Fallback(st.options)), [])
      else Outcome(listed, [])
    case NotOk => Outcome(st, [])
    case Failed => Outcome(st.(options := Fallback(st.options)), [])
  }

  /** What `POST /upload` yields: the stored file's reply, a non-ok
      response, or a thrown error. */
  datatype UploadResult = UploadOk(filename: string, path: string) | UploadRejected | UploadFailed

  /** The start of `handleUpload`: with no file chosen nothing happens;
      otherwise the section is marked as uploading. */
  function BeginUpload(st: Section, hasFile: bool): (r: Section)
    ensures r.uploading <==> hasFile || st.uploading
    ensures r.mode == st.mode && r.videos == st.videos && r.selected == st.selected && r.options == st.options
  {
    if hasFile then st.(uploading := true) else st
  }

  /** The rest of `handleUpload`: on success the list is fetched again and
      the uploaded file is selected and announced; on every path the
      uploading mark is cleared. */
  function FinishUpload(st: Section, res: UploadResult, refetch: FetchResult, hasSocket: bool): (r: Outcome)
    ensures !r.section.uploading
    ensures r.section.mode == st.mode
    ensures res.UploadOk? && refetch.Listed? ==> r.section.videos == refetch.videos
    ensures res.UploadOk? && !refetch.Listed? ==> r.section.videos == st.videos
    ensures res.UploadOk? ==>
      var v := Video(res.filename, res.path);
      r.section.selected == Some(v) && r.section.options == Options(true, SourceFor(v))
      && r.sent == (if hasSocket then [ChangeSource(v)] else [])
    ensures !res.UploadOk? ==> r == Outcome(st.(uploading := false), [])
  {
    match res
    case UploadOk(f, p) =>
      var fetched := FetchVideos(st, refetch, hasSocket);
      var chosen := SelectVideo(fetched.section, Video(f, p), true, hasSocket);
      Outcome(chosen.section.(uploading := false), fetched.sent + chosen.sent)
    case _ => Outcome(st.(uploading := false), [])
  }

  /** The label of a list button: names longer than the limit keep their
      first characters and end in "...", at exactly the limit. */
  function Label(name: string): (r: string)
    ensures |r| <= LabelLimit
    ensures r == name <==> |name| <= LabelLimit
    ensures |name| > LabelLimit ==> |r| == LabelLimit && r[..LabelKeep] == name[..LabelKeep] && r[LabelKeep..] == "..."
  {
    if |name| > LabelLimit then name[..LabelKeep] + "..." else name
  }

  /** `setMode` from the mode buttons: the section shows mode `m`, with
      the list, the selection, the upload mark and the player options as
      they were. */
  function SetMode(st: Section, m: Mode): (r: Section)
    ensures r.mode == m
    ensures r.videos == st.videos && r.selected == st.selected
    ensures r.uploading == st.uploading && r.options == st.options
  {
    st.(mode := m)
  }

  /** The exit button of the live stream: back to stored mode, with the
      list, the selection, the upload mark and the player options as they
      were. */
  function ExitLive(st: Section): (r: Section)
    ensures r.mode == Stored
    ensures r.videos == st.videos && r.selected == st.selected
    ensures r.uploading == st.uploading && r.options == st.options
  {
    SetMode(st, Stored)
  }

  /** The player is told it is active only in stored mode. */
  predicate PlayerActive(m: Mode) {
    m == Stored
  }

  /** The live stream component is mounted in broadcast and view modes. */
  predicate LiveMounted(m: Mode) {
    m == Broadcast || m == View
  }

  /** In every mode exactly one of the two surfaces is in use, and leaving
      the live stream returns to the player. */
  lemma ModesAreExclusive(st: Section, m: Mode)
    ensures PlayerActive(m) != LiveMounted(m)
    ensures PlayerActive(ExitLive(st).mode) && !LiveMounted(ExitLive(st).mode)
  {
  }

  /** A label never loses the start of the name: every character it keeps
      before the ellipsis is the name's own. */
  lemma LabelKeepsPrefix(name: string, i: nat)
    requires i < |name| && i < LabelKeep
    ensures Label(name)[i] == name[i]
  {
  }
}
